=== FILE: README.md ===
# Tornado intercept stickers — a Dafny model

`sticker_creator.py` turns lines of the form `"<date> - <location> - <EF rating>"`
into stickers. For each line it:

- parses the line into three fields;
- picks a funnel colour from the Enhanced Fujita (EF) rating;
- recolours a base graphic through a foreground mask;
- wraps the location text into lines, shrinking the font while the text is one line that is too wide, down to size 10;
- derives a file name.

Finally it lays the stickers out on a contact sheet.

This project models that pipeline as pure Dafny functions and proves what
each step promises. The image library, the fonts and the file system stay
outside the model:

- a text measure is a function parameter `(text, size) -> width`;
- images are explicit pixel grids;
- nothing is read or written.

Modules, in dependency order:

- `Wrappers`: `Option`.
- `Chars`: ASCII character classes, i.e. Python's `isspace`, `\w` and `upper`.
- `Substrings`: `in`, `str.split(sep)`, `sep.join`.
- `Whitespace`: `str.strip()`, `str.split()`.
- `CharMaps`: `upper`, `re.sub` deleting a character class, `replace` of one character, `[:n]`.
- `StickerRecord`: `parse_sticker_line` and the driver's `if not date_str: continue`.
- `Colors`, `Severity`: the EF colour table and `get_ef_category_color`, with an explicit `Category` datatype.
- `Recolor`: `recolor_graphic`.
- `Wrap`: greedy line packing of `draw_text_with_wrapping`.
- `FontSize`: the font-size search and the final layout of `draw_text_with_wrapping`.
- `FileName`: the sticker's file name.
- `Sheet`: the contact sheet's grid arithmetic.
- `Examples`: the data set's first line and the sheet for its 51 stickers, worked through the model.

Each operation is paired with an independent description of what it should
compute, and a lemma connects the two:

- **Colour:** classification is characterised as "the highest-ranked EF category the rating mentions", where EF1 counts only when the rating contains no `EF0-EF1` anywhere; a standalone EF1 next to the compound is ignored.
- **Font size:** the search's result is characterised as "the start size when it is at most 10; otherwise the largest size above 10, a whole number of 3-steps below the start, that does not overflow as one line, or 10 when every such size overflows". The layout is characterised as the greedy packing at that size.
- **Wrapping:** line packing is characterised as "every line grows only while it fits and every break is forced". The loop's packing is proved to be the only such packing.
- **Parsing:** parsing is the inverse of formatting a clean record.
- **Sheet:** sheet cells are proved to lie inside the margins, to be pairwise disjoint and to be in row-major order.

Fields are separated by the three-character `" - "`, not by a bare `-`, so
a compound rating such as `EF0-EF1` stays one field.

## Model

| member | source | states |
|---|---|---|
| Substrings.Find | sticker_creator.py:48-55 | the `in` test: the leftmost index at which the pattern occurs, no earlier occurrence, and `None` exactly when it occurs nowhere |
| Substrings.Split | sticker_creator.py:38 | `split(sep)`: at least one piece, the pieces joined with `sep` give back the string, and no piece contains `sep` |
| Substrings.SplitCons | sticker_creator.py:38 | a leading piece that cannot absorb the separator splits off as the first piece, the rest splitting on its own |
| Substrings.SplitThree | sticker_creator.py:38-39 | two such pieces and a last piece without the separator, joined by it, split back into exactly those three pieces |
| Whitespace.Strip | sticker_creator.py:40-42 | `strip()`: the result has no whitespace at either end and is a contiguous slice of the input |
| Whitespace.StripFrame | sticker_creator.py:40-42 | surrounding a stripped string with any whitespace and stripping gives the string back |
| Whitespace.StripIdempotent | sticker_creator.py:40-42 | stripping twice is stripping once |
| Whitespace.SplitWords | sticker_creator.py:78 | `split()`: every piece is a non-empty run of non-whitespace, and there are none exactly when the text is all whitespace |
| Whitespace.SplitWordsFrame | sticker_creator.py:78 | `split()` reads one word at a time: leading whitespace, then a word ending at whitespace or at the end, yields that word followed by the words of the rest |
| Whitespace.SplitJoinWords | sticker_creator.py:78 | splitting words joined by single spaces gives the words back |
| CharMaps.Filter | sticker_creator.py:217-218 | `re.sub` with a negated class: no longer than the input, every kept character is in the class and comes from the input |
| CharMaps.FilterAppend | sticker_creator.py:217-218 | deletion works character by character: filtering a concatenation filters each part |
| CharMaps.FilterFixpoint | sticker_creator.py:217-218 | the substitution leaves a string unchanged if and only if every character is in the class |
| CharMaps.Upper | sticker_creator.py:47 | `upper()` on ASCII: same length; each lower-case letter becomes its upper-case letter, every other character is kept, and no lower-case letter remains |
| CharMaps.UpperIdempotent | sticker_creator.py:47 | upper-casing twice is upper-casing once |
| CharMaps.ReplaceChar | sticker_creator.py:217 | `replace` of one character: same length; each occurrence of the replaced character becomes the new one and every other character stays in place; the replaced character no longer occurs |
| CharMaps.ReplaceRoundTrip | sticker_creator.py:219 | when the new character did not occur before, replacing it back restores the original string |
| CharMaps.Take | sticker_creator.py:217 | `[:n]`: a prefix of the string; exactly `n` characters when the string is longer, the whole string otherwise |
| StickerRecord.ParseStickerLine | sticker_creator.py:37-44 | a record exactly when the line splits on `" - "` into three pieces; each field is stripped and free of the separator |
| StickerRecord.ParseFormat | sticker_creator.py:37-44 | parsing a formatted record whose leading fields cannot fuse with the separator gives the record back |
| StickerRecord.SelectRecords | sticker_creator.py:196-198 | the driver keeps at most one record per line; a record is kept exactly when it was parsed and its date is non-empty |
| StickerRecord.SelectRecordsAppend | sticker_creator.py:196-198 | selection is line by line and keeps order: selecting from two batches concatenates the selections |
| StickerRecord.StickerRecords | sticker_creator.py:196-198 | at most one sticker per input line; a record becomes a sticker exactly when some line parses to it and its date is non-empty |
| Severity.CategoryOfKey | sticker_creator.py:14-18 | the table keys are exactly the seven categories, each key mapping to its own category |
| Severity.TableKeysAreCategories | sticker_creator.py:14-18 | every key of the colour table names a category |
| Severity.FirstRatingDigit | sticker_creator.py:57-59 | `re.search(r'EF(\d)')`: a digit that follows `EF` somewhere in the rating |
| Severity.Classify | sticker_creator.py:47-61 | the rule list runs on the upper-cased rating, and a category it selects is one the upper-cased rating names |
| Severity.GetEfCategoryColor | sticker_creator.py:46-62 | the colour is the table entry of the selected category, and the default exactly when no category is selected |
| Severity.CompoundMentionsEF0 | sticker_creator.py:52-54 | a rating containing `EF0-EF1` contains `EF0` |
| Severity.FallbackFindsNoCategory | sticker_creator.py:56-61 | once EF0..EF5 are all absent, the regular-expression fallback never finds a table key |
| Severity.ClassifySound | sticker_creator.py:46-62 | a selected category is the highest-ranked one the upper-cased rating mentions, and no category is selected only when none is mentioned |
| Severity.ClassifyIsHighestMention | sticker_creator.py:48-55 | both directions: the rule list selects `c` if and only if `c` is the highest-ranked category mentioned, and the default if and only if none is mentioned |
| Severity.ColorOfHighestMention | sticker_creator.py:46-62 | a rating is painted with the table entry of the highest-ranked category it mentions |
| Severity.ClassifyIgnoresCase | sticker_creator.py:47 | classification and colour ignore the case of the rating |
| Severity.CompoundIsEF0 | sticker_creator.py:52-53 | a compound `EF0-EF1` rating without EF2..EF5 is EF0, not EF1 |
| Severity.ClassifyKey | sticker_creator.py:48-55 | each bare table key classifies as its own category |
| Recolor.Solid | sticker_creator.py:72-73 | `Image.new` with a fill: the given size, every pixel the fill value |
| Recolor.ForegroundMask | sticker_creator.py:66-71 | the mask has the image's size, holds only 255 and 0, and is 255 at a pixel if and only if that pixel is visible and not near black |
| Recolor.Paste | sticker_creator.py:73 | `paste` through a 0/255 mask: the base's size; the layer's pixel where the mask is 255, the base's pixel elsewhere |
| Recolor.ToRgb | sticker_creator.py:74 | `convert("RGB")`: the same size, each pixel keeping its red, green and blue channels |
| Recolor.RecolorGraphic | sticker_creator.py:64-74 | same size as the input; each pixel is the target colour where the input is visible and not near black, black elsewhere |
| Recolor.RecolorDependsOnlyOnMask | sticker_creator.py:71 | images with the same foreground recolour identically |
| Recolor.RecolorStable | sticker_creator.py:64-74 | recolouring a recoloured sticker with the same bright colour changes nothing |
| Wrap.LineTextSnoc | sticker_creator.py:87 | appending a word extends the line by a space and the word |
| Wrap.GreedyAccumulates | sticker_creator.py:96-100 | lines finished before the loop resumes are kept unchanged in front of the rest |
| Wrap.GreedyIsGreedy | sticker_creator.py:96-100 | the loop, started from any open line that fits, produces a greedy packing of the remaining words |
| Wrap.Pack | sticker_creator.py:96-100 | a greedy packing: the lines cover the words in order; every line only grew while it fitted; every break happened because the next word did not fit |
| Wrap.GreedyUnique | sticker_creator.py:96-100 | any greedy packing continuing an open line is the loop's packing |
| Wrap.PackIsOnlyGreedy | sticker_creator.py:96-100 | the loop's packing is the only greedy packing of the words |
| Wrap.LinesSplitBack | sticker_creator.py:96-100 | each joined line splits back into its own words |
| Wrap.WrapLines | sticker_creator.py:96-100 | at least one line; the lines' words are the input words in order; lines of two or more words fit; each break is forced by the next word |
| FontSize.Shrink | sticker_creator.py:91-92 | the next size is three smaller, clamped at 10, and always strictly smaller |
| FontSize.SingleOverflow | sticker_creator.py:90 | the retry condition holds exactly when the words pack into one line and all the words joined by spaces are wider than the maximum |
| FontSize.SearchFontSize | sticker_creator.py:82-94 | never larger than the start; unchanged at or below 10; otherwise at least 10 and three-step-aligned with the start or 10; above 10 only when the words do not overflow as one line |
| FontSize.AbandonedSizesOverflow | sticker_creator.py:82-94 | every size the loop passed over packed into one line that was too wide |
| FontSize.NoShrinkWhenItFits | sticker_creator.py:90-94 | a start size at which the text does not overflow as one line is kept |
| FontSize.SearchFontSizeUnique | sticker_creator.py:82-94 | the loop's final size is the one and only size that is the start at or below 10, or else 10 or a whole number of 3-steps below the start, that does not overflow when above 10, and above which every such size overflowed |
| FontSize.AbandonedAlignedSizesOverflow | sticker_creator.py:82-94 | every size above the final one, at most the start and a whole number of 3-steps below it, packed into one line that was too wide |
| FontSize.FitText | sticker_creator.py:76-100 | nothing for text without words; otherwise the size bounds of the search; every size passed over overflowed as one line and the chosen size, when above 10, does not; at least one line; the words preserved; multi-word lines fit; every break is forced at the chosen size; the lines are the greedy packing at that size |
| FontSize.OneFittingWord | sticker_creator.py:78-100 | a single word that fits at the start size is drawn at that size on one line |
| FileName.BeforeFirstComma | sticker_creator.py:217 | `split(',')[0]`: a prefix of the location containing no comma |
| FileName.SafeLocation | sticker_creator.py:217 | at most 30 characters, no space, only word characters, whitespace and `-`, each taken from the location or `_`, no leading whitespace |
| FileName.SafeLocationIgnoresAfterComma | sticker_creator.py:217 | text after the first comma has no effect |
| FileName.SafeLocationPlain | sticker_creator.py:217 | when the only whitespace is the space, the result holds only word characters and `-` |
| FileName.SafeLocationFixed | sticker_creator.py:217 | a short location of word characters and `-` is its own safe form |
| FileName.SafeLocationOfWords | sticker_creator.py:217 | a location of words of word characters and `-`, separated by single spaces, becomes the words joined by `_`, cut to 30 characters |
| FileName.SafeRating | sticker_creator.py:218 | only word characters, `?` and `-` remain, and the rating is unchanged if and only if it had no others |
| FileName.DashedDate | sticker_creator.py:219 | same length; each `.` becomes `-` and every other character stays in place |
| FileName.DashedDateRoundTrip | sticker_creator.py:219 | a date without `-` is recovered by turning `-` back into `.` |
| FileName.StickerFileName | sticker_creator.py:217-219 | the name ends in `.png` and has no other `.` |
| Sheet.RowCount | sticker_creator.py:240 | ceiling division: the fewest rows of `cols` cells that hold `n` cells |
| Sheet.SheetSize | sticker_creator.py:229-243 | no sheet exactly when there are no stickers |
| Sheet.CellOrigin | sticker_creator.py:251-256 | a paste position is never left of or above the margins; a sticker in the first column starts at the left margin; the first row sits at the top margin, sticker `i` at `i` cell widths from the left margin |
| Sheet.CellInsideSheet | sticker_creator.py:242-256 | every sticker lies inside the sheet's margins |
| Sheet.SheetIsTight | sticker_creator.py:242-256 | the last column and the last row end exactly one margin before the sheet's edge |
| Sheet.CellsDisjoint | sticker_creator.py:250-256 | distinct stickers are pasted onto disjoint rectangles |
| Sheet.RowMajorOrder | sticker_creator.py:250-256 | a later sticker is on a lower row, or on the same row further right |
| Examples.ParseFirstLine | sticker_creator.py:112 | the first data line parses into `05.18.13`, `YOUNG, TEXAS`, `EF0-EF1` |
| Examples.ParseMissingField | sticker_creator.py:39-44 | a line with two fields is rejected |
| Examples.CompoundRatingIsGrey | sticker_creator.py:52-53 | `EF0-EF1` is classified EF0 and drawn grey |
| Examples.StandaloneEF1NextToCompound | sticker_creator.py:48-53 | in `EF1 EF0-EF1` the standalone EF1 is present yet not counted, and the rating is classified EF0 and drawn grey |
| Examples.DataSetSheet | sticker_creator.py:238-256 | 51 stickers take four rows; the last one sits in column 11 of row 3 |
| Examples.ShortLocationFits | sticker_creator.py:82-100 | the location `SHORT`, fitting within 500 at the location font size 85, keeps that size and one line |
| Examples.PlainFileName | sticker_creator.py:217-219 | a plain town before the comma and a plain rating appear verbatim in the file name |
| Examples.FirstLineFileName | sticker_creator.py:217-219 | the first line's sticker is named `05-18-13_YOUNG_EF0-EF1.png` |

## Left out

- Image loading and saving, font loading and the font fallback (lines 167-180), `draw.text`, and all printing. These are I/O. The text measure `draw.textlength` is a function parameter with real-valued widths.
- Vertical placement and centring of the text (lines 101-108 and 203-214). This is floating-point layout over font metrics.
- Hex colour strings: the table holds RGB triples in place of `"#RRGGBB"`, and `Image.new` parsing the hex string is not modelled.
- The embedded data set and its splitting into lines (lines 111-164): `StickerRecords` takes the lines as given.
- Pasting stickers onto the sheet: only the positions and the sheet size are modelled. The sticker size is a parameter, since it is read back from the first saved sticker.
- The error handling around the sheet pastes (lines 258-265). It only prints.
- Recolor.Paste: modelled only for a mask of 0 and 255, the only values `recolor_graphic` writes. Partial alpha blending is left out.
- Character classes are ASCII only. Python's Unicode `isspace`, `\w` and `upper` accept more characters.
- FileName.SafeLocation: whitespace other than the space, such as a tab inside the location, survives into the name. The source replaces only `' '`, and the contract says no more than that.
- Severity.FirstRatingDigit: the contract does not say the match is the leftmost one. Only whether the digit names a table key matters, and no key can be reached there.
- Wrap.WrapLines: a one-word line is not promised to fit, because the source does not promise it either. A single word wider than the maximum stays on its own line.

=== FILE: charmaps.dfy ===
/**
 * Character-by-character string transformations: `str.upper`, removal of
 * characters outside a class (`re.sub(r'[^...]', '', s)`), `str.replace`
 * of one character by another, and the prefix slice `s[:n]`.
 */
module CharMaps {
  import opened Chars

  /** Python's `s.upper()` on ASCII: lower-case letters become upper case,
      every other character is kept, and nothing lower-case remains. */
  function Upper(s: string): (u: string)
    ensures |u| == |s|
    ensures forall i :: 0 <= i < |u| ==> !IsLower(u[i])
    ensures forall i :: 0 <= i < |s| && IsLower(s[i]) ==> IsUpper(u[i]) && u[i] as int == s[i] as int - 32
    ensures forall i :: 0 <= i < |s| && !IsLower(s[i]) ==> u[i] == s[i]
  {
    seq(|s|, i requires 0 <= i < |s| => UpperChar(s[i]))
  }

  /** Upper-casing an upper-case string changes nothing. */
  lemma UpperFixed(s: string)
    requires forall i :: 0 <= i < |s| ==> !IsLower(s[i])
    ensures Upper(s) == s
  {
  }

  lemma UpperIdempotent(s: string)
    ensures Upper(Upper(s)) == Upper(s)
  {
  }

  /** `s` with every character that fails `keep` removed, in order. */
  function Filter(keep: char -> bool, s: string): (r: string)
    ensures |r| <= |s|
    ensures forall i :: 0 <= i < |r| ==> keep(r[i])
    ensures forall i :: 0 <= i < |r| ==> r[i] in s
    decreases |s|
  {
    if |s| == 0 then ""
    else (if keep(s[0]) then [s[0]] else []) + Filter(keep, s[1..])
  }

  /** Filtering distributes over concatenation. */
  lemma {:induction false} FilterAppend(keep: char -> bool, s: string, t: string)
    ensures Filter(keep, s + t) == Filter(keep, s) + Filter(keep, t)
    decreases |s|
  {
    if |s| > 0 {
      assert (s + t)[1..] == s[1..] + t;
      FilterAppend(keep, s[1..], t);
    } else {
      assert s + t == t;
    }
  }

  /** Filtering leaves a string unchanged exactly when every character
      already passes. */
  lemma {:induction false} FilterFixpoint(keep: char -> bool, s: string)
    ensures Filter(keep, s) == s <==> forall i :: 0 <= i < |s| ==> keep(s[i])
    decreases |s|
  {
    if |s| > 0 {
      FilterFixpoint(keep, s[1..]);
      AllKeepCons(keep, s);
      if keep(s[0]) {
        ConsEqual(s, Filter(keep, s[1..]));
      } else {
        assert |Filter(keep, s)| < |s|;
      }
    }
  }

  /** Every character passes exactly when the first one does and every
      later one does. */
  lemma AllKeepCons(keep: char -> bool, s: string)
    requires |s| > 0
    ensures (forall i :: 0 <= i < |s| ==> keep(s[i]))
      <==> keep(s[0]) && forall i :: 0 <= i < |s[1..]| ==> keep(s[1..][i])
  {
    if keep(s[0]) && forall i :: 0 <= i < |s[1..]| ==> keep(s[1..][i]) {
      forall i | 0 <= i < |s|
        ensures keep(s[i])
      {
        if i > 0 {
          assert s[i] == s[1..][i - 1];
        }
      }
    }
  }

  /** A string equals its first character followed by `t` exactly when its
      tail is `t`. */
  lemma ConsEqual(s: string, t: string)
    requires |s| > 0
    ensures [s[0]] + t == s <==> t == s[1..]
  {
    if t == s[1..] {
      assert [s[0]] + s[1..] == s;
    }
  }

  /** Python's `s.replace(from, to)` for single characters: every `from`
      becomes `to`, every other character stays where it was. */
  function ReplaceChar(s: string, from: char, to: char): (r: string)
    ensures |r| == |s|
    ensures forall i :: 0 <= i < |s| && s[i] == from ==> r[i] == to
    ensures forall i :: 0 <= i < |s| && s[i] != from ==> r[i] == s[i]
    ensures from != to ==> from !in r
  {
    seq(|s|, i requires 0 <= i < |s| => if s[i] == from then to else s[i])
  }

  /** Replacing a character that does not occur changes nothing. */
  lemma ReplaceAbsent(s: string, from: char, to: char)
    requires from !in s
    ensures ReplaceChar(s, from, to) == s
  {
  }

  /** Replacement works character by character: replacing in a
      concatenation replaces in each part. */
  lemma ReplaceAppend(s: string, t: string, from: char, to: char)
    ensures ReplaceChar(s + t, from, to) == ReplaceChar(s, from, to) + ReplaceChar(t, from, to)
  {
  }

  /** Replacing by a character that does not occur is undone by the reverse
      replacement. */
  lemma ReplaceRoundTrip(s: string, from: char, to: char)
    requires to !in s
    ensures ReplaceChar(ReplaceChar(s, from, to), to, from) == s
  {
    var r := ReplaceChar(s, from, to);
    var back := ReplaceChar(r, to, from);
    forall i | 0 <= i < |s|
      ensures back[i] == s[i]
    {
      assert s[i] != to;
    }
  }

  /** Python's `s[:n]`: the first `n` characters, or all of a shorter
      string. */
  function Take(s: string, n: nat): (r: string)
    ensures |r| <= n && |r| <= |s|
    ensures |s| <= n ==> r == s
    ensures |s| > n ==> |r| == n
    ensures r == s[..|r|]
  {
    if |s| <= n then s else s[..n]
  }
}

=== FILE: chars.dfy ===
/**
 * Character classes used by the sticker generator, restricted to ASCII.
 */
module Chars {

  /** Python's `str.isspace` on ASCII: space, the C whitespace characters
      9..13 (tab, newline, vertical tab, form feed, carriage return) and the
      information separators 0x1C..0x1F. */
  predicate IsSpace(c: char) {
    c == ' ' || 9 <= c as int <= 13 || 28 <= c as int <= 31
  }

  predicate IsDigit(c: char) {
    '0' <= c <= '9'
  }

  predicate IsLower(c: char) {
    'a' <= c <= 'z'
  }

  predicate IsUpper(c: char) {
    'A' <= c <= 'Z'
  }

  /** The regular-expression class `\w` on ASCII: letters, digits and `_`. */
  predicate IsWordChar(c: char) {
    IsLower(c) || IsUpper(c) || IsDigit(c) || c == '_'
  }

  /** `str.upper` on one ASCII character. */
  function UpperChar(c: char): (u: char)
    ensures !IsLower(u)
    ensures IsLower(c) ==> IsUpper(u) && u as int == c as int - 32
    ensures !IsLower(c) ==> u == c
  {
    if IsLower(c) then (c as int - 32) as char else c
  }

  /** Every character of `s` is whitespace. */
  predicate AllSpace(s: string) {
    forall i :: 0 <= i < |s| ==> IsSpace(s[i])
  }

  /** No character of `s` is whitespace. */
  predicate NoSpace(s: string) {
    forall i :: 0 <= i < |s| ==> !IsSpace(s[i])
  }
}

=== FILE: colors.dfy ===
/** Colours as integer RGB triples; the source writes them as hex strings. */
module Colors {

  datatype Rgb = Rgb(r: int, g: int, b: int)

  const Black: Rgb := Rgb(0, 0, 0)
}

=== FILE: examples.dfy ===
/**
 * The data set's first line and the driver's constants, worked through the
 * model end to end. The strings come in as parameters fixed by `requires`,
 * so the verifier reasons about them through the lemmas rather than by
 * unfolding every recursive definition on the literals.
 */
module Examples {
  import opened Wrappers
  import opened Chars
  import opened Substrings
  import opened Whitespace
  import opened CharMaps
  import opened StickerRecord
  import opened Severity
  import opened Wrap
  import opened FontSize
  import opened FileName
  import opened Sheet

  /** A stripped field without one of the separator's characters and not
      ending in `-` can stand before a separator. */
  lemma LeadingPlain(f: string, k: nat)
    requires IsStripped(f) && k < |FieldSeparator| && FieldSeparator[k] !in f
    requires f == [] || f[|f| - 1] != '-'
    ensures LeadingField(f)
  {
    MissingCharNotContained(f, FieldSeparator, k);
  }

  /** The first line of the data set parses into its three fields. */
  lemma ParseFirstLine(date: string, place: string, rating: string)
    requires date == "05.18.13" && place == "YOUNG, TEXAS" && rating == "EF0-EF1"
    ensures ParseStickerLine(date + " - " + place + " - " + rating) == Some(Record(date, place, rating))
  {
    LeadingPlain(date, 0);
    LeadingPlain(place, 1);
    MissingCharNotContained(rating, FieldSeparator, 0);
    ParseFormat(Record(date, place, rating));
  }

  /** A line with a field missing is rejected. */
  lemma ParseMissingField(date: string, place: string)
    requires date == "05.18.13" && place == "YOUNG"
    ensures ParseStickerLine(date + " - " + place) == None
  {
    LeadingPlain(date, 0);
    LeadingFieldSeparable(date);
    SplitCons(date, FieldSeparator, place);
    MissingCharNotContained(place, FieldSeparator, 0);
    SplitWhole(place, FieldSeparator);
  }

  /** The compound rating of the first line is drawn grey, as EF0. */
  lemma CompoundRatingIsGrey(rating: string)
    requires rating == "EF0-EF1"
    ensures Classify(rating) == Some(EF0)
    ensures GetEfCategoryColor(rating) == Grey
  {
    CompoundMentionsOnlyEF0(rating);
    HighestEF0IsGrey(rating);
  }

  /** A rating whose highest mention is EF0 is classified EF0 and drawn
      grey. */
  lemma HighestEF0IsGrey(rating: string)
    requires IsHighestMention(Upper(rating), EF0)
    ensures Classify(rating) == Some(EF0)
    ensures GetEfCategoryColor(rating) == Grey
  {
    ClassifyIsHighestMention(rating, EF0);
    ColorOfHighestMention(rating, EF0);
  }

  /** The compound rating, upper-cased, mentions EF0 and nothing ranked
      above it. */
  lemma CompoundMentionsOnlyEF0(rating: string)
    requires rating == "EF0-EF1"
    ensures IsHighestMention(Upper(rating), EF0)
  {
    UpperFixed(rating);
    assert OccursAt(rating, EF0toEF1, 0);
    ContainsIff(rating, EF0toEF1);
    CompoundMentionsEF0(rating);
    forall c | Rank(c) > Rank(EF1)
      ensures !Contains(rating, Key(c))
    {
      MissingCharNotContained(rating, Key(c), 2);
    }
  }

  /** A standalone EF1 next to the compound is ignored as well: once the
      rating holds "EF0-EF1" anywhere, EF1 is not counted at all, and the
      rating "EF1 EF0-EF1" is drawn grey, as EF0. */
  lemma StandaloneEF1NextToCompound(rating: string)
    requires rating == "EF1 EF0-EF1"
    ensures OccursAt(rating, Key(EF1), 0)
    ensures !Mentions(Upper(rating), EF1)
    ensures Classify(rating) == Some(EF0)
    ensures GetEfCategoryColor(rating) == Grey
  {
    StandaloneMentionsOnlyEF0(rating);
    HighestEF0IsGrey(rating);
    assert rating[..3] == Key(EF1);
  }

  /** "EF1 EF0-EF1", upper-cased, is itself; it holds the compound and
      mentions EF0 and nothing ranked above it. */
  lemma StandaloneMentionsOnlyEF0(rating: string)
    requires rating == "EF1 EF0-EF1"
    ensures Upper(rating) == rating && Contains(rating, EF0toEF1)
    ensures IsHighestMention(Upper(rating), EF0)
  {
    UpperFixed(rating);
    StandaloneHoldsCompound(rating);
    CompoundMentionsEF0(rating);
    NothingAboveEF1(rating);
  }

  /** "EF1 EF0-EF1" holds the compound from its fifth character on. */
  lemma StandaloneHoldsCompound(rating: string)
    requires rating == "EF1 EF0-EF1"
    ensures Contains(rating, EF0toEF1)
  {
    assert rating[4..11] == EF0toEF1;
    assert OccursAt(rating, EF0toEF1, 4);
    ContainsIff(rating, EF0toEF1);
  }

  /** "EF1 EF0-EF1" names no category ranked above EF1. */
  lemma NothingAboveEF1(rating: string)
    requires rating == "EF1 EF0-EF1"
    ensures forall c :: Rank(c) > Rank(EF1) ==> !Contains(rating, Key(c))
  {
    forall c | Rank(c) > Rank(EF1)
      ensures !Contains(rating, Key(c))
    {
      HighDigitAbsent(rating, c);
      MissingCharNotContained(rating, Key(c), 2);
    }
  }

  /** The digit of a category above EF1 is not a character of
      "EF1 EF0-EF1". */
  lemma HighDigitAbsent(rating: string, c: Category)
    requires rating == "EF1 EF0-EF1"
    requires Rank(c) > Rank(EF1)
    ensures Key(c)[2] !in rating
  {
    assert forall i :: 0 <= i < |rating| ==> rating[i] in "EF10 -";
    assert Key(c)[2] in "2345";
  }

  /** The data set's 51 stickers, thirteen per row, take four rows; the
      last row holds twelve. */
  lemma DataSetSheet(w: nat, h: nat)
    ensures RowCount(51, StickerSheet.columns) == 4
    ensures CellOrigin(50, w, h, StickerSheet) == Point(30 + 11 * (w + 15), 30 + 3 * (h + 15))
    ensures SheetSize(51, w, h, StickerSheet)
         == Some(Size(13 * w + 180 + 60, 4 * h + 45 + 60))
  {
  }

  /** A location that fits on one line at the location font size keeps
      that size and stays one line. */
  lemma ShortLocationFits(text: string, width: Measure)
    requires text == "SHORT"
    requires width(text, LocationFontSize) <= 500.0
    ensures FitText(text, width, LocationFontSize, 500.0) == Some(TextLayout(LocationFontSize, [text]))
  {
    assert IsWord(text);
    OneFittingWord(text, width, LocationFontSize, 500.0);
  }

  /** A town name of word characters, followed by a comma and anything
      else, keeps the town in the file name; a rating of word characters
      and `-` is kept whole. */
  lemma PlainFileName(date: string, town: string, rest: string, rating: string)
    requires |town| <= MaxLocationLength
    requires forall i :: 0 <= i < |town| ==> IsWordChar(town[i]) || town[i] == '-'
    requires forall i :: 0 <= i < |rating| ==> RatingKeeps(rating[i])
    ensures StickerFileName(date, town + "," + rest, rating)
         == DashedDate(date) + "_" + town + "_" + rating + Extension
  {
    SafeLocationIgnoresAfterComma(town, rest);
    SafeLocationFixed(town);
    FilterFixpoint(RatingKeeps, rating);
  }

  lemma FirstLineCharacters(town: string, rating: string)
    requires town == "YOUNG" && rating == "EF0-EF1"
    ensures forall i :: 0 <= i < |town| ==> IsWordChar(town[i]) || town[i] == '-'
    ensures forall i :: 0 <= i < |rating| ==> RatingKeeps(rating[i])
  {
  }

  lemma FirstLineDate(date: string)
    requires date == "05.18.13"
    ensures DashedDate(date) == "05-18-13"
  {
  }

  /** The file name of the first line's sticker. */
  lemma FirstLineFileName(date: string, town: string, rest: string, rating: string)
    requires date == "05.18.13" && town == "YOUNG" && rest == " TEXAS" && rating == "EF0-EF1"
    ensures StickerFileName(date, town + "," + rest, rating) == DashedDate(date) + "_" + town + "_" + rating + Extension
    ensures DashedDate(date) == "05-18-13"
  {
    FirstLineCharacters(town, rating);
    PlainFileName(date, town, rest, rating);
    FirstLineDate(date);
  }
}

=== FILE: filename.dfy ===
/**
 * The name under which each sticker is saved (sticker_creator.py,
 * lines 217-219): `<date with . as ->_<location>_<rating>.png`.
 */
module FileName {
  import opened Chars
  import opened Substrings
  import opened Whitespace
  import opened CharMaps

  /** The location part is cut to this many characters. */
  const MaxLocationLength: nat := 30

  const Extension: string := ".png"

  /** The characters `re.sub(r'[^\w\s-]', '', ...)` keeps. */
  predicate LocationKeeps(c: char) {
    IsWordChar(c) || IsSpace(c) || c == '-'
  }

  /** The characters `re.sub(r'[^\w?-]', '', ...)` keeps. */
  predicate RatingKeeps(c: char) {
    IsWordChar(c) || c == '?' || c == '-'
  }

  /** `location_str.split(',')[0]`: the text before the first comma. */
  function BeforeFirstComma(location: string): (head: string)
    ensures |head| <= |location| && location[..|head|] == head
    ensures ',' !in head
  {
    var parts := Split(location, ",");
    JoinHead(parts, ",");
    SplitPieceLacksChar(location, ',');
    parts[0]
  }

  /** No piece of a split on a one-character separator holds that character. */
  lemma SplitPieceLacksChar(s: string, c: char)
    ensures forall k :: 0 <= k < |Split(s, [c])| ==> c !in Split(s, [c])[k]
  {
    var parts := Split(s, [c]);
    forall k | 0 <= k < |parts|
      ensures c !in parts[k]
    {
      if c in parts[k] {
        CharContained(parts[k], c);
      }
    }
  }

  /** Text after the first comma has no influence on the location part. */
  lemma BeforeFirstCommaCons(a: string, b: string)
    requires ',' !in a
    ensures BeforeFirstComma(a + "," + b) == a
  {
    forall j | 0 <= j < |a|
      ensures !OccursAt(a + ",", ",", j)
    {
      if OccursAt(a + ",", ",", j) {
        OccursAtChar(a + ",", ",", j, 0);
      }
    }
    SplitCons(a, ",", b);
  }

  /** The characters of `s` are those of `source`, or `_`. */
  predicate CharsFrom(s: string, source: string) {
    forall i :: 0 <= i < |s| ==> s[i] == '_' || s[i] in source
  }

  /** `safe_loc`: the part of the location before the first comma, with
      characters other than word characters, whitespace and `-` removed,
      stripped, spaces turned into `_`, cut to 30 characters. */
  function SafeLocation(location: string): (safe: string)
    ensures |safe| <= MaxLocationLength
    ensures forall i :: 0 <= i < |safe| ==> safe[i] != ' ' && LocationKeeps(safe[i])
    ensures CharsFrom(safe, location)
    ensures safe == [] || !IsSpace(safe[0])
  {
    var head := BeforeFirstComma(location);
    var kept := Filter(LocationKeeps, head);
    var stripped := Strip(kept);
    var underscored := ReplaceChar(stripped, ' ', '_');
    var safe := Take(underscored, MaxLocationLength);
    SafeLocationStages(location, head, kept, stripped, underscored, safe);
    safe
  }

  lemma SafeLocationStages(location: string, head: string, kept: string, stripped: string,
                           underscored: string, safe: string)
    requires |head| <= |location| && location[..|head|] == head
    requires kept == Filter(LocationKeeps, head)
    requires stripped == Strip(kept)
    requires underscored == ReplaceChar(stripped, ' ', '_')
    requires safe == Take(underscored, MaxLocationLength)
    ensures forall i :: 0 <= i < |safe| ==> safe[i] != ' ' && LocationKeeps(safe[i])
    ensures CharsFrom(safe, location)
    ensures safe == [] || !IsSpace(safe[0])
  {
    ContainedChars(kept, stripped);
    forall i | 0 <= i < |safe|
      ensures safe[i] != ' ' && LocationKeeps(safe[i])
      ensures safe[i] == '_' || safe[i] in location
    {
      assert safe[i] == underscored[i];
      if stripped[i] != ' ' {
        KeptCharFromLocation(location, head, kept, stripped[i]);
      }
    }
  }

  /** A character the filter kept is one the filter accepts, taken from
      the location. */
  lemma KeptCharFromLocation(location: string, head: string, kept: string, c: char)
    requires |head| <= |location| && location[..|head|] == head
    requires kept == Filter(LocationKeeps, head)
    requires c in kept
    ensures LocationKeeps(c) && c in location
  {
    var j :| 0 <= j < |kept| && kept[j] == c;
    assert kept[j] in head;
    var k :| 0 <= k < |head| && head[k] == c;
    assert location[..|head|][k] == location[k];
  }

  /** The location part comes only from the text before the first comma. */
  lemma SafeLocationIgnoresAfterComma(a: string, b: string)
    requires ',' !in a
    ensures SafeLocation(a + "," + b) == SafeLocation(a)
  {
    BeforeFirstCommaCons(a, b);
    MissingCharNotContained(a, ",", 0);
    SplitWhole(a, ",");
  }

  /** When the only whitespace in the location is the space, the location
      part is made of word characters (including `_`) and `-` alone. */
  lemma SafeLocationPlain(location: string)
    requires forall i :: 0 <= i < |location| && IsSpace(location[i]) ==> location[i] == ' '
    ensures forall i :: 0 <= i < |SafeLocation(location)| ==>
      IsWordChar(SafeLocation(location)[i]) || SafeLocation(location)[i] == '-'
  {
  }

  /** A location without a comma is its own text before the first comma. */
  lemma NoCommaHead(location: string)
    requires ',' !in location
    ensures BeforeFirstComma(location) == location
  {
    MissingCharNotContained(location, ",", 0);
    SplitWhole(location, ",");
  }

  /** `safe_loc` evaluated stage by stage: once the text before the comma,
      its filtered form and the stripped form are known, the result is the
      stripped form with spaces turned into `_`, cut to the limit. */
  lemma SafeLocationSteps(location: string, head: string, kept: string, stripped: string)
    requires BeforeFirstComma(location) == head
    requires Filter(LocationKeeps, head) == kept
    requires Strip(kept) == stripped
    ensures SafeLocation(location) == Take(ReplaceChar(stripped, ' ', '_'), MaxLocationLength)
  {
  }

  /** A location that passes every stage unchanged up to the strip: the
      safe form is it with spaces turned into `_`, cut to the limit. */
  lemma SafeLocationUnfiltered(location: string)
    requires BeforeFirstComma(location) == location
    requires Filter(LocationKeeps, location) == location
    requires Strip(location) == location
    ensures SafeLocation(location) == Take(ReplaceChar(location, ' ', '_'), MaxLocationLength)
  {
    SafeLocationSteps(location, location, location, location);
  }

  /** Only kept characters, no comma, no whitespace at the ends: every
      stage up to the strip leaves the location alone. */
  lemma KeptStagesFixed(location: string)
    requires forall i :: 0 <= i < |location| ==> LocationKeeps(location[i]) && location[i] != ','
    requires IsStripped(location)
    ensures BeforeFirstComma(location) == location
    ensures Filter(LocationKeeps, location) == location
    ensures Strip(location) == location
  {
    NoCommaHead(location);
    FilterFixpoint(LocationKeeps, location);
    StripStripped(location);
  }

  /** A location already made of word characters and `-`, and no longer
      than the limit, is its own safe form. */
  lemma SafeLocationFixed(location: string)
    requires |location| <= MaxLocationLength
    requires forall i :: 0 <= i < |location| ==> IsWordChar(location[i]) || location[i] == '-'
    ensures SafeLocation(location) == location
  {
    PlainCharsKept(location);
    KeptStagesFixed(location);
    assert BeforeFirstComma(location) == location;
    assert Filter(LocationKeeps, location) == location;
    assert Strip(location) == location;
    ReplaceAbsent(location, ' ', '_');
    assert ReplaceChar(location, ' ', '_') == location;
    SafeLocationUnfiltered(location);
  }

  /** Word characters and `-` pass the location filter, are not commas, and
      are not whitespace, so such a string is already stripped. */
  lemma PlainCharsKept(location: string)
    requires forall i :: 0 <= i < |location| ==> IsWordChar(location[i]) || location[i] == '-'
    ensures forall i :: 0 <= i < |location| ==> LocationKeeps(location[i]) && location[i] != ','
    ensures IsStripped(location)
    ensures ' ' !in location
  {
    if |location| > 0 {
      assert IsWordChar(location[0]) || location[0] == '-';
      assert IsWordChar(location[|location| - 1]) || location[|location| - 1] == '-';
    }
  }

  /** A word of the file-name alphabet: non-empty, word characters and `-`. */
  predicate PlainWord(w: string) {
    |w| > 0 && forall i :: 0 <= i < |w| ==> IsWordChar(w[i]) || w[i] == '-'
  }

  /** Plain words joined by single spaces: every character is a word
      character, `-` or the space. */
  predicate SpacedChar(c: char) {
    IsWordChar(c) || c == '-' || c == ' '
  }

  /** Replacing the separator of a join whose parts lack it swaps the
      separator. */
  lemma {:induction false} JoinReplaceSeparator(parts: seq<string>, from: char, to: char)
    requires forall k :: 0 <= k < |parts| ==> from !in parts[k]
    ensures ReplaceChar(Join(parts, [from]), from, to) == Join(parts, [to])
    decreases |parts|
  {
    if |parts| == 1 {
      ReplaceAbsent(parts[0], from, to);
    } else if |parts| > 1 {
      JoinReplaceSeparator(parts[1..], from, to);
      ReplaceAppend(parts[0] + [from], Join(parts[1..], [from]), from, to);
      ReplaceAppend(parts[0], [from], from, to);
      ReplaceAbsent(parts[0], from, to);
    }
  }

  /** Plain words joined by single spaces hold only characters the
      location filter keeps, and no comma. */
  lemma SpacedWordsKept(ws: seq<string>)
    requires forall k :: 0 <= k < |ws| ==> PlainWord(ws[k])
    ensures forall i :: 0 <= i < |Join(ws, " ")| ==>
      LocationKeeps(Join(ws, " ")[i]) && Join(ws, " ")[i] != ','
  {
    assert forall k, i :: 0 <= k < |ws| && 0 <= i < |ws[k]| ==> SpacedChar(ws[k][i]);
    JoinKeeps(ws, " ", SpacedChar);
  }

  /** Plain words joined by single spaces are stripped. */
  lemma SpacedWordsStripped(ws: seq<string>)
    requires forall k :: 0 <= k < |ws| ==> PlainWord(ws[k])
    ensures IsStripped(Join(ws, " "))
  {
    if |ws| > 0 {
      var j := Join(ws, " ");
      var first, last := ws[0], ws[|ws| - 1];
      JoinHead(ws, " ");
      JoinLast(ws, " ");
      FirstCharOfPrefix(j, first);
      LastCharOfSuffix(j, last);
      PlainWordEnds(first);
      PlainWordEnds(last);
    }
  }

  /** A plain word neither starts nor ends with whitespace. */
  lemma PlainWordEnds(w: string)
    requires PlainWord(w)
    ensures !IsSpace(w[0]) && !IsSpace(w[|w| - 1])
  {
    assert IsWordChar(w[0]) || w[0] == '-';
    assert IsWordChar(w[|w| - 1]) || w[|w| - 1] == '-';
  }

  lemma FirstCharOfPrefix(s: string, p: string)
    requires 0 < |p| <= |s| && s[..|p|] == p
    ensures s[0] == p[0]
  {
    assert s[..|p|][0] == s[0];
  }

  lemma LastCharOfSuffix(s: string, p: string)
    requires 0 < |p| <= |s| && s[|s| - |p|..] == p
    ensures s[|s| - 1] == p[|p| - 1]
  {
    assert s[|s| - |p|..][|p| - 1] == s[|s| - 1];
  }

  /** For plain words joined by spaces, every stage up to the strip is the
      identity. */
  lemma SpacedWordsStages(ws: seq<string>)
    requires forall k :: 0 <= k < |ws| ==> PlainWord(ws[k])
    ensures SafeLocation(Join(ws, " ")) == Take(ReplaceChar(Join(ws, " "), ' ', '_'), MaxLocationLength)
  {
    var j := Join(ws, " ");
    SpacedWordsKept(ws);
    SpacedWordsStripped(ws);
    KeptStagesFixed(j);
    SafeLocationUnfiltered(j);
  }

  /** Turning the spaces of plain words joined by spaces into `_` joins
      the words with `_`. */
  lemma SpacedWordsUnderscored(ws: seq<string>)
    requires forall k :: 0 <= k < |ws| ==> PlainWord(ws[k])
    ensures ReplaceChar(Join(ws, " "), ' ', '_') == Join(ws, "_")
  {
    JoinReplaceSeparator(ws, ' ', '_');
  }

  /** A location of plain words separated by single spaces, without a
      comma: the safe form joins the words with `_` and keeps the first 30
      characters. */
  lemma SafeLocationOfWords(ws: seq<string>)
    requires forall k :: 0 <= k < |ws| ==> PlainWord(ws[k])
    ensures SafeLocation(Join(ws, " ")) == Take(Join(ws, "_"), MaxLocationLength)
  {
    SpacedWordsStages(ws);
    SpacedWordsUnderscored(ws);
  }

  /** `safe_ef`: the rating with characters other than word characters,
      `?` and `-` removed. */
  function SafeRating(rating: string): (safe: string)
    ensures forall i :: 0 <= i < |safe| ==> RatingKeeps(safe[i])
    ensures safe == rating <==> forall i :: 0 <= i < |rating| ==> RatingKeeps(rating[i])
  {
    FilterFixpoint(RatingKeeps, rating);
    Filter(RatingKeeps, rating)
  }

  /** `date_str.replace('.', '-')`: each `.` becomes `-`, everything else
      stays. */
  function DashedDate(date: string): (dashed: string)
    ensures |dashed| == |date| && '.' !in dashed
    ensures forall i :: 0 <= i < |date| && date[i] == '.' ==> dashed[i] == '-'
    ensures forall i :: 0 <= i < |date| && date[i] != '.' ==> dashed[i] == date[i]
  {
    ReplaceChar(date, '.', '-')
  }

  /** A date written without `-` is recovered from its dashed form. */
  lemma DashedDateRoundTrip(date: string)
    requires '-' !in date
    ensures ReplaceChar(DashedDate(date), '-', '.') == date
  {
    ReplaceRoundTrip(date, '.', '-');
  }

  /** The sticker's file name: the only `.` in it starts the `.png`
      extension. */
  function StickerFileName(date: string, location: string, rating: string): (name: string)
    ensures |name| >= |Extension| && name[|name| - |Extension|..] == Extension
    ensures forall i :: 0 <= i < |name| - |Extension| ==> name[i] != '.'
  {
    var dashed := DashedDate(date);
    var loc := SafeLocation(location);
    var rat := SafeRating(rating);
    NoDotInStem(dashed, loc, rat);
    var stem := dashed + "_" + loc + "_" + rat;
    DotOnlyInExtension(stem);
    stem + Extension
  }

  /** The three parts are free of `.`, and so is the stem built from them. */
  lemma NoDotInStem(dashed: string, loc: string, rat: string)
    requires '.' !in dashed
    requires forall i :: 0 <= i < |loc| ==> LocationKeeps(loc[i])
    requires forall i :: 0 <= i < |rat| ==> RatingKeeps(rat[i])
    ensures '.' !in dashed + "_" + loc + "_" + rat
  {
    assert !LocationKeeps('.') && !RatingKeeps('.');
    assert '.' !in loc && '.' !in rat;
  }

  /** A stem without `.` followed by the extension has its only `.` in the
      extension. */
  lemma DotOnlyInExtension(stem: string)
    requires '.' !in stem
    ensures |stem + Extension| >= |Extension|
    ensures (stem + Extension)[|stem + Extension| - |Extension|..] == Extension
    ensures forall i :: 0 <= i < |stem + Extension| - |Extension| ==> (stem + Extension)[i] != '.'
  {
    var name := stem + Extension;
    assert name[|name| - |Extension|..] == Extension;
    forall i | 0 <= i < |name| - |Extension|
      ensures name[i] != '.'
    {
      assert name[i] == stem[i];
    }
  }
}

=== FILE: fontsize.dfy ===
/**
 * The font-size search of `draw_text_with_wrapping` (sticker_creator.py,
 * lines 78-100): shrink by a fixed step while the words pack into a single
 * line that is too wide, never below the floor size, then pack once more
 * at the chosen size.
 */
module FontSize {
  import opened Wrappers
  import opened Whitespace
  import opened Wrap

  /** The loop runs while the size is above this floor. */
  const MinFontSize: int := 10

  /** The size decrement of one retry. */
  const FontStep: int := 3

  /** `LOCATION_FONT_SIZE`, the starting size for the location text. */
  const LocationFontSize: int := 85

  /** The next size to try: one step smaller, clamped at the floor. */
  function Shrink(size: int): (next: int)
    requires size > MinFontSize
    ensures MinFontSize <= next < size
    ensures next == MinFontSize || next == size - FontStep
  {
    if size - FontStep < MinFontSize then MinFontSize else size - FontStep
  }

  /** The words pack into one line wider than the maximum: the case that
      makes the loop retry at a smaller size. */
  predicate SingleOverflow(words: seq<string>, width: Measure, size: int, maxWidth: real): (r: bool)
    requires |words| > 0
    ensures r <==> |Pack(words, width, size, maxWidth)| == 1 && width(LineText(words), size) > maxWidth
  {
    var groups := Pack(words, width, size, maxWidth);
    var lines := Lines(groups);
    SingleLineHoldsAll(groups);
    |lines| == 1 && width(lines[0], size) > maxWidth
  }

  /** A packing of one line holds all the words on that line. */
  lemma SingleLineHoldsAll(groups: seq<seq<string>>)
    ensures |groups| == 1 ==> Flatten(groups) == groups[0]
  {
    if |groups| == 1 {
      assert Flatten(groups) == groups[0] + Flatten(groups[1..]);
      assert groups[0] + [] == groups[0];
    }
  }

  /** The size the `while current_font_size > 10` loop settles on. */
  function SearchFontSize(words: seq<string>, width: Measure, size: int, maxWidth: real): (final: int)
    requires |words| > 0
    ensures final <= size
    ensures size <= MinFontSize ==> final == size
    ensures size > MinFontSize ==> final >= MinFontSize && (final == MinFontSize || (size - final) % FontStep == 0)
    ensures final > MinFontSize ==> !SingleOverflow(words, width, final, maxWidth)
    decreases size
  {
    if size <= MinFontSize then size
    else if SingleOverflow(words, width, size, maxWidth) then SearchFontSize(words, width, Shrink(size), maxWidth)
    else size
  }

  /** Every size the loop tried and abandoned, `initial - 3j` above the
      final size, packed to a single line that was too wide. */
  lemma {:induction false} AbandonedSizesOverflow(words: seq<string>, width: Measure, initial: int,
                                                  maxWidth: real, j: nat)
    requires |words| > 0
    requires initial - FontStep * j > SearchFontSize(words, width, initial, maxWidth)
    ensures SingleOverflow(words, width, initial - FontStep * j, maxWidth)
    decreases initial
  {
    if j > 0 {
      var next := Shrink(initial);
      if next == initial - FontStep {
        AbandonedSizesOverflow(words, width, next, maxWidth, j - 1);
      }
    }
  }

  /** The loop's outcome as a size with three properties: it is the start
      size at or below the floor; otherwise it is the floor or a whole number
      of steps below the start, it does not overflow when above the floor,
      and every such size above it overflowed. Exactly one size has them,
      the one `SearchFontSize` returns. */
  predicate SettledSize(words: seq<string>, width: Measure, initial: int, maxWidth: real, f: int)
    requires |words| > 0
  {
    && (initial <= MinFontSize ==> f == initial)
    && (initial > MinFontSize ==> MinFontSize <= f <= initial && (f == MinFontSize || (initial - f) % FontStep == 0))
    && (f > MinFontSize ==> !SingleOverflow(words, width, f, maxWidth))
    && (forall s :: f < s <= initial && (initial - s) % FontStep == 0 ==> SingleOverflow(words, width, s, maxWidth))
  }

  /** The search settles on a size with those properties, and on no other. */
  lemma SearchFontSizeUnique(words: seq<string>, width: Measure, initial: int, maxWidth: real, f: int)
    requires |words| > 0
    ensures SettledSize(words, width, initial, maxWidth, f) <==> f == SearchFontSize(words, width, initial, maxWidth)
  {
    var final := SearchFontSize(words, width, initial, maxWidth);
    AbandonedAlignedSizesOverflow(words, width, initial, maxWidth);
    assert SettledSize(words, width, initial, maxWidth, final);
    if SettledSize(words, width, initial, maxWidth, f) && initial > MinFontSize {
      if f > final {
        assert false;
      } else if f < final {
        assert false;
      }
    }
  }

  /** A size at which the words need no shrinking is kept. */
  lemma NoShrinkWhenItFits(words: seq<string>, width: Measure, initial: int, maxWidth: real)
    requires |words| > 0
    requires !SingleOverflow(words, width, initial, maxWidth)
    ensures SearchFontSize(words, width, initial, maxWidth) == initial
  {
  }

  datatype TextLayout = TextLayout(fontSize: int, lines: seq<string>)

  /** The next line is not empty, and its first word would not have fitted
      on the end of `line`. */
  predicate NextLineForced(line: string, next: string, width: Measure, size: int, maxWidth: real) {
    SplitWords(next) != [] && width(line + " " + SplitWords(next)[0], size) > maxWidth
  }

  /** Every line break of `lines` was forced at font size `size`. */
  predicate BreaksForcedAt(lines: seq<string>, width: Measure, size: int, maxWidth: real) {
    forall k :: 0 <= k < |lines| - 1 ==> NextLineForced(lines[k], lines[k + 1], width, size, maxWidth)
  }

  /** One word packs into one line holding just that word. */
  lemma PackOneWord(word: string, width: Measure, size: int, maxWidth: real)
    ensures Pack([word], width, size, maxWidth) == [[word]]
    ensures Lines([[word]]) == [word]
  {
    assert [word][1..] == [];
    assert Lines([[word]])[0] == LineText([word]) == word;
  }

  /** A single word that fits at the starting size is drawn at that size,
      on one line. */
  lemma OneFittingWord(word: string, width: Measure, size: int, maxWidth: real)
    requires IsWord(word)
    requires width(word, size) <= maxWidth
    ensures FitText(word, width, size, maxWidth) == Some(TextLayout(size, [word]))
  {
    SplitJoinWords([word]);
    assert SplitWords(word) == [word];
    PackOneWord(word, width, size, maxWidth);
    assert LineText([word]) == word;
    assert !SingleOverflow([word], width, size, maxWidth);
    NoShrinkWhenItFits([word], width, size, maxWidth);
  }

  /** `draw_text_with_wrapping` up to drawing: nothing for text without
      words, otherwise the chosen size and the lines packed at that size. */
  function FitText(text: string, width: Measure, initialSize: int, maxWidth: real): (layout: Option<TextLayout>)
    ensures layout.None? <==> SplitWords(text) == []
    ensures layout.Some? ==> layout.value.fontSize <= initialSize
    ensures layout.Some? && initialSize > MinFontSize ==>
      && layout.value.fontSize >= MinFontSize
      && (layout.value.fontSize == MinFontSize || (initialSize - layout.value.fontSize) % FontStep == 0)
    ensures layout.Some? && initialSize <= MinFontSize ==> layout.value.fontSize == initialSize
    ensures layout.Some? ==> |layout.value.lines| >= 1
    ensures layout.Some? ==> var lines := layout.value.lines;
      Flatten(seq(|lines|, k requires 0 <= k < |lines| => SplitWords(lines[k]))) == SplitWords(text)
    ensures layout.Some? ==> var lines := layout.value.lines;
      forall k :: 0 <= k < |lines| && |SplitWords(lines[k])| >= 2 ==> width(lines[k], layout.value.fontSize) <= maxWidth
    ensures layout.Some? && layout.value.fontSize > MinFontSize ==>
      |layout.value.lines| >= 2 || width(layout.value.lines[0], layout.value.fontSize) <= maxWidth
    ensures layout.Some? ==> forall s :: layout.value.fontSize < s <= initialSize && (initialSize - s) % FontStep == 0 ==>
      SingleOverflow(SplitWords(text), width, s, maxWidth)
    ensures layout.Some? ==> BreaksForcedAt(layout.value.lines, width, layout.value.fontSize, maxWidth)
    ensures layout.Some? && layout.value.fontSize > MinFontSize ==>
      !SingleOverflow(SplitWords(text), width, layout.value.fontSize, maxWidth)
    ensures layout.Some? ==>
      layout.value.lines == Lines(Pack(SplitWords(text), width, layout.value.fontSize, maxWidth))
  {
    var words := SplitWords(text);
    if words == [] then None
    else
      var size := SearchFontSize(words, width, initialSize, maxWidth);
      AbandonedAlignedSizesOverflow(words, width, initialSize, maxWidth);
      var lines := WrapLines(words, width, size, maxWidth);
      assert lines == Lines(Pack(words, width, size, maxWidth));
      Some(TextLayout(size, lines))
  }

  /** The sizes the loop passed over, stated by size: every size above the
      final one, not above the start and a whole number of steps below it,
      packed into one line that was too wide. */
  lemma AbandonedAlignedSizesOverflow(words: seq<string>, width: Measure, initial: int, maxWidth: real)
    requires |words| > 0
    ensures forall s :: SearchFontSize(words, width, initial, maxWidth) < s <= initial && (initial - s) % FontStep == 0 ==>
      SingleOverflow(words, width, s, maxWidth)
  {
    forall s | SearchFontSize(words, width, initial, maxWidth) < s <= initial && (initial - s) % FontStep == 0
      ensures SingleOverflow(words, width, s, maxWidth)
    {
      var j: nat := (initial - s) / FontStep;
      assert initial - FontStep * j == s;
      AbandonedSizesOverflow(words, width, initial, maxWidth, j);
    }
  }
}

=== FILE: recolor.dfy ===
/**
 * Recolouring of the base graphic (sticker_creator.py, `recolor_graphic`):
 * a binary foreground mask of the pixels that are visible and not near
 * black, and a solid colour layer pasted through that mask onto an opaque
 * black canvas.
 */
module Recolor {
  import opened Colors

  datatype Rgba = Rgba(r: int, g: int, b: int, a: int)

  /** A raster of `width` x `height` pixels; `rows[y][x]` is column `x` of
      row `y`. */
  datatype Image<T> = Image(width: nat, height: nat, rows: seq<seq<T>>)

  predicate WellShaped<T>(img: Image<T>) {
    |img.rows| == img.height && forall y :: 0 <= y < img.height ==> |img.rows[y]| == img.width
  }

  predicate SameSize<T, U>(a: Image<T>, b: Image<U>) {
    a.width == b.width && a.height == b.height
  }

  /** Channels at or below this value count as near black. */
  const NearBlack: int := 15

  /** The two values the mask takes. */
  const MaskOn: int := 255
  const MaskOff: int := 0

  /** A pixel that receives the target colour: visible, and some channel
      above the near-black threshold. */
  predicate IsForeground(p: Rgba) {
    p.a > 0 && (p.r > NearBlack || p.g > NearBlack || p.b > NearBlack)
  }

  /** `Image.new(mode, size, v)`: every pixel `v`. */
  function Solid<T>(width: nat, height: nat, v: T): (img: Image<T>)
    ensures WellShaped(img) && img.width == width && img.height == height
    ensures forall y, x :: 0 <= y < height && 0 <= x < width ==> img.rows[y][x] == v
  {
    Image(width, height, seq(height, y => seq(width, x => v)))
  }

  /** The "L" mask of the nested loop: `MaskOn` on foreground pixels,
      `MaskOff` elsewhere. */
  function ForegroundMask(img: Image<Rgba>): (mask: Image<int>)
    requires WellShaped(img)
    ensures WellShaped(mask) && SameSize(mask, img)
    ensures forall y, x :: 0 <= y < mask.height && 0 <= x < mask.width ==>
      mask.rows[y][x] == MaskOn || mask.rows[y][x] == MaskOff
    ensures forall y, x :: 0 <= y < mask.height && 0 <= x < mask.width ==>
      (mask.rows[y][x] == MaskOn <==> IsForeground(img.rows[y][x]))
  {
    Image(img.width, img.height,
      seq(img.height, y requires 0 <= y < img.height =>
        seq(img.width, x requires 0 <= x < img.width =>
          if IsForeground(img.rows[y][x]) then MaskOn else MaskOff)))
  }

  /** `base.paste(layer, (0, 0), mask)` for a mask holding only `MaskOn`
      (copy the layer) and `MaskOff` (keep the base). */
  function Paste(base: Image<Rgba>, layer: Image<Rgba>, mask: Image<int>): (out: Image<Rgba>)
    requires WellShaped(base) && WellShaped(layer) && WellShaped(mask)
    requires SameSize(base, layer) && SameSize(base, mask)
    requires forall y, x :: 0 <= y < mask.height && 0 <= x < mask.width ==>
      mask.rows[y][x] == MaskOn || mask.rows[y][x] == MaskOff
    ensures WellShaped(out) && SameSize(out, base)
    ensures forall y, x :: 0 <= y < out.height && 0 <= x < out.width ==>
      out.rows[y][x] == (if mask.rows[y][x] == MaskOn then layer.rows[y][x] else base.rows[y][x])
  {
    Image(base.width, base.height,
      seq(base.height, y requires 0 <= y < base.height =>
        seq(base.width, x requires 0 <= x < base.width =>
          if mask.rows[y][x] == MaskOn then layer.rows[y][x] else base.rows[y][x])))
  }

  /** `convert("RGB")`: drop the alpha channel. */
  function ToRgb(img: Image<Rgba>): (out: Image<Rgb>)
    requires WellShaped(img)
    ensures WellShaped(out) && SameSize(out, img)
    ensures forall y, x :: 0 <= y < out.height && 0 <= x < out.width ==>
      out.rows[y][x].r == img.rows[y][x].r && out.rows[y][x].g == img.rows[y][x].g &&
      out.rows[y][x].b == img.rows[y][x].b
  {
    Image(img.width, img.height,
      seq(img.height, y requires 0 <= y < img.height =>
        seq(img.width, x requires 0 <= x < img.width =>
          var p := img.rows[y][x]; Rgb(p.r, p.g, p.b))))
  }

  function Opaque(c: Rgb): Rgba {
    Rgba(c.r, c.g, c.b, 255)
  }

  /** `recolor_graphic`: the target colour on exactly the foreground
      pixels, opaque black everywhere else, at the input's size. The input
      is a value and is left as it was. */
  function RecolorGraphic(img: Image<Rgba>, color: Rgb): (out: Image<Rgb>)
    requires WellShaped(img)
    ensures WellShaped(out) && SameSize(out, img)
    ensures forall y, x :: 0 <= y < out.height && 0 <= x < out.width ==>
      out.rows[y][x] == (if IsForeground(img.rows[y][x]) then color else Black)
  {
    var mask := ForegroundMask(img);
    var layer := Solid(img.width, img.height, Opaque(color));
    var canvas := Solid(img.width, img.height, Opaque(Black));
    ToRgb(Paste(canvas, layer, mask))
  }

  /** Two images of the same size with the same foreground recolour to the
      same image: the output depends on the pixels only through the mask. */
  lemma RecolorDependsOnlyOnMask(a: Image<Rgba>, b: Image<Rgba>, color: Rgb)
    requires WellShaped(a) && WellShaped(b) && SameSize(a, b)
    requires forall y, x :: 0 <= y < a.height && 0 <= x < a.width ==>
      IsForeground(a.rows[y][x]) == IsForeground(b.rows[y][x])
    ensures RecolorGraphic(a, color) == RecolorGraphic(b, color)
  {
    var oa := RecolorGraphic(a, color);
    var ob := RecolorGraphic(b, color);
    forall y | 0 <= y < a.height
      ensures oa.rows[y] == ob.rows[y]
    {
    }
  }

  /** A colour bright enough to count as foreground itself. */
  predicate Bright(c: Rgb) {
    c.r > NearBlack || c.g > NearBlack || c.b > NearBlack
  }

  /** An RGB image read back with every pixel opaque. */
  function WithOpaqueAlpha(img: Image<Rgb>): (out: Image<Rgba>)
    requires WellShaped(img)
    ensures WellShaped(out) && SameSize(out, img)
    ensures forall y, x :: 0 <= y < out.height && 0 <= x < out.width ==>
      out.rows[y][x].a == 255 && out.rows[y][x] == Opaque(img.rows[y][x])
  {
    Image(img.width, img.height,
      seq(img.height, y requires 0 <= y < img.height =>
        seq(img.width, x requires 0 <= x < img.width => Opaque(img.rows[y][x]))))
  }

  /** Recolouring a recoloured sticker again with the same bright colour
      changes nothing: black stays background and the colour stays
      foreground. */
  lemma RecolorStable(img: Image<Rgba>, color: Rgb)
    requires WellShaped(img)
    requires Bright(color)
    ensures RecolorGraphic(WithOpaqueAlpha(RecolorGraphic(img, color)), color) == RecolorGraphic(img, color)
  {
    var out := RecolorGraphic(img, color);
    var twice := RecolorGraphic(WithOpaqueAlpha(out), color);
    forall y | 0 <= y < out.height
      ensures twice.rows[y] == out.rows[y]
    {
    }
  }
}

=== FILE: record.dfy ===
/**
 * One line of the sticker data set, `"<date> - <location> - <rating>"`,
 * parsed into a record (sticker_creator.py, `parse_sticker_line`), and the
 * driver's selection of the lines that become stickers.
 */
module StickerRecord {
  import opened Wrappers
  import opened Chars
  import opened Substrings
  import opened Whitespace

  const FieldSeparator: string := " - "

  datatype Record = Record(date: string, location: string, rating: string)

  /** A parsed field: stripped, and free of the field separator. */
  predicate ParsedField(f: string) {
    IsStripped(f) && !Contains(f, FieldSeparator)
  }

  lemma StrippedPieceField(p: string)
    requires !Contains(p, FieldSeparator)
    ensures ParsedField(Strip(p))
  {
    NotContainedInPiece(p, Strip(p), FieldSeparator);
  }

  /** `parse_sticker_line`: a record when the line splits on `" - "` into
      exactly three pieces, each then stripped; `None` otherwise. */
  function ParseStickerLine(line: string): (r: Option<Record>)
    ensures r.Some? <==> |Split(line, FieldSeparator)| == 3
    ensures r.Some? ==> ParsedField(r.value.date) && ParsedField(r.value.location) && ParsedField(r.value.rating)
  {
    var parts := Split(line, FieldSeparator);
    if |parts| == 3 then
      StrippedPieceField(parts[0]);
      StrippedPieceField(parts[1]);
      StrippedPieceField(parts[2]);
      Some(Record(Strip(parts[0]), Strip(parts[1]), Strip(parts[2])))
    else None
  }

  /** The line a record is written as in the data set. */
  function Format(r: Record): string {
    r.date + FieldSeparator + r.location + FieldSeparator + r.rating
  }

  /** A field that can stand before a separator: parsed, and not ending in
      `" -"` (which would fuse with the separator's leading space). */
  predicate LeadingField(f: string) {
    ParsedField(f) && !(|f| >= 2 && f[|f| - 2..] == " -")
  }

  /** Within a field free of the separator, `p + " - "` has no separator
      starting at `j` when the whole match would lie inside `p`. */
  lemma NoSeparatorInside(p: string, j: int)
    requires !Contains(p, FieldSeparator)
    requires 0 <= j && j + |FieldSeparator| <= |p|
    ensures !OccursAt(p + FieldSeparator, FieldSeparator, j)
  {
    ContainsIff(p, FieldSeparator);
    assert !OccursAt(p, FieldSeparator, j);
    OccursBeforeAppend(p, FieldSeparator, FieldSeparator, j);
  }

  /** No separator starts at the last character of `p`: it would need the
      separator's leading space to be its `-`. */
  lemma NoSeparatorAtLast(p: string)
    requires |p| > 0
    ensures !OccursAt(p + FieldSeparator, FieldSeparator, |p| - 1)
  {
    var s := p + FieldSeparator;
    var j := |p| - 1;
    assert s[j + 1] == ' ';
    if OccursAt(s, FieldSeparator, j) {
      OccursAtChar(s, FieldSeparator, j, 1);
    }
  }

  /** No separator starts at the second-to-last character of `p` unless `p`
      ends in `" -"`. */
  lemma NoSeparatorAtSecondLast(p: string)
    requires |p| >= 2 && p[|p| - 2..] != " -"
    ensures !OccursAt(p + FieldSeparator, FieldSeparator, |p| - 2)
  {
    var s := p + FieldSeparator;
    var j := |p| - 2;
    assert p[|p| - 2..] == [p[j], p[j + 1]];
    assert s[j] == p[j] && s[j + 1] == p[j + 1];
    if OccursAt(s, FieldSeparator, j) {
      OccursAtChar(s, FieldSeparator, j, 0);
      OccursAtChar(s, FieldSeparator, j, 1);
    }
  }

  /** A leading field followed by the separator: the first separator in
      `p + " - "` is the appended one. */
  lemma LeadingFieldSeparable(p: string)
    requires LeadingField(p)
    ensures Separable(p, FieldSeparator)
  {
    forall j | 0 <= j < |p|
      ensures !OccursAt(p + FieldSeparator, FieldSeparator, j)
    {
      NoSeparatorAt(p, j);
    }
  }

  /** No separator starts at index `j` of a leading field followed by the
      separator. */
  lemma NoSeparatorAt(p: string, j: int)
    requires LeadingField(p)
    requires 0 <= j < |p|
    ensures !OccursAt(p + FieldSeparator, FieldSeparator, j)
  {
    if j + |FieldSeparator| <= |p| {
      NoSeparatorInside(p, j);
    } else if j == |p| - 1 {
      NoSeparatorAtLast(p);
    } else {
      NoSeparatorAtSecondLast(p);
    }
  }

  /** A formatted line splits into the record's three fields. */
  lemma SplitFormat(r: Record)
    requires LeadingField(r.date) && LeadingField(r.location) && ParsedField(r.rating)
    ensures Split(Format(r), FieldSeparator) == [r.date, r.location, r.rating]
  {
    LeadingFieldSeparable(r.date);
    LeadingFieldSeparable(r.location);
    SplitThree(r.date, r.location, r.rating, FieldSeparator);
  }

  /** A line whose split yields three pieces parses to their stripped
      forms. */
  lemma ParseThreePieces(line: string, a: string, b: string, c: string)
    requires Split(line, FieldSeparator) == [a, b, c]
    ensures ParseStickerLine(line) == Some(Record(Strip(a), Strip(b), Strip(c)))
  {
  }

  /** Writing a record as a line and parsing it back gives the record. */
  lemma ParseFormat(r: Record)
    requires LeadingField(r.date) && LeadingField(r.location) && ParsedField(r.rating)
    ensures ParseStickerLine(Format(r)) == Some(r)
  {
    SplitFormat(r);
    ParseThreePieces(Format(r), r.date, r.location, r.rating);
    StripStripped(r.date);
    StripStripped(r.location);
    StripStripped(r.rating);
  }

  /** The driver loop keeps a parsed line when its date is non-empty
      (`if not date_str: continue`), in order. */
  function SelectRecords(parsed: seq<Option<Record>>): (rs: seq<Record>)
    ensures |rs| <= |parsed|
    ensures forall k :: 0 <= k < |rs| ==> rs[k].date != ""
    ensures forall r :: r in rs <==> Some(r) in parsed && r.date != ""
    decreases |parsed|
  {
    if |parsed| == 0 then []
    else
      var rest := SelectRecords(parsed[1..]);
      match parsed[0]
      case Some(r) => if r.date != "" then [r] + rest else rest
      case None => rest
  }

  /** Selection works line by line: selecting from two batches is selecting
      from each and concatenating. */
  lemma {:induction false} SelectRecordsAppend(a: seq<Option<Record>>, b: seq<Option<Record>>)
    ensures SelectRecords(a + b) == SelectRecords(a) + SelectRecords(b)
    decreases |a|
  {
    if |a| > 0 {
      assert (a + b)[1..] == a[1..] + b;
      SelectRecordsAppend(a[1..], b);
    } else {
      assert a + b == b;
    }
  }

  /** `parse_sticker_line` applied to every line, in order. */
  function ParseAll(lines: seq<string>): seq<Option<Record>> {
    seq(|lines|, i requires 0 <= i < |lines| => ParseStickerLine(lines[i]))
  }

  /** The records the driver turns into stickers: at most one per line, and
      exactly the records of lines that parse with a non-empty date. */
  function StickerRecords(lines: seq<string>): (rs: seq<Record>)
    ensures |rs| <= |lines|
    ensures forall r :: r in rs <==> r.date != "" && Some(r) in ParseAll(lines)
  {
    SelectRecords(ParseAll(lines))
  }
}

=== FILE: severity.dfy ===
/**
 * Severity rating to funnel colour (sticker_creator.py, `EF_COLORS`,
 * `DEFAULT_FUNNEL_COLOR` and `get_ef_category_color`). The rule list is
 * modelled as a classification into a `Category` followed by a table
 * lookup, so that the precedence among categories sharing a colour can be
 * stated.
 */
module Severity {
  import opened Wrappers
  import opened Chars
  import opened Substrings
  import opened CharMaps
  import opened Colors

  datatype Category = EFU | EF0 | EF1 | EF2 | EF3 | EF4 | EF5

  /** The category's key in the colour table. */
  function Key(c: Category): string {
    match c
    case EFU => "EFU"
    case EF0 => "EF0"
    case EF1 => "EF1"
    case EF2 => "EF2"
    case EF3 => "EF3"
    case EF4 => "EF4"
    case EF5 => "EF5"
  }

  /** Precedence of the rule list: a higher rank is checked first. */
  function Rank(c: Category): nat {
    match c
    case EFU => 0
    case EF0 => 1
    case EF1 => 2
    case EF2 => 3
    case EF3 => 4
    case EF4 => 5
    case EF5 => 6
  }

  const Grey: Rgb := Rgb(0xB0, 0xB0, 0xB0)

  /** `EF_COLORS`. */
  const EfColors: map<string, Rgb> := map[
    "EFU" := Grey, "EF0" := Grey, "EF1" := Grey,
    "EF2" := Rgb(0xFF, 0xFF, 0x00), "EF3" := Rgb(0xFF, 0xA5, 0x00), "EF4" := Rgb(0xFF, 0x00, 0x00),
    "EF5" := Rgb(0xFF, 0x00, 0xFF)
  ]

  /** `DEFAULT_FUNNEL_COLOR`. */
  const DefaultFunnelColor: Rgb := Rgb(0x80, 0x80, 0x80)

  /** The compound rating that counts as EF0 rather than EF1. */
  const EF0toEF1: string := "EF0-EF1"

  /** The category whose table key is `k`, if any. */
  function CategoryOfKey(k: string): (c: Option<Category>)
    ensures c.Some? ==> Key(c.value) == k
    ensures c.None? ==> forall h :: Key(h) != k
  {
    if k == "EFU" then Some(EFU)
    else if k == "EF0" then Some(EF0)
    else if k == "EF1" then Some(EF1)
    else if k == "EF2" then Some(EF2)
    else if k == "EF3" then Some(EF3)
    else if k == "EF4" then Some(EF4)
    else if k == "EF5" then Some(EF5)
    else None
  }

  /** The table is keyed by exactly the categories. */
  lemma TableKeysAreCategories(k: string)
    ensures k in EfColors <==> CategoryOfKey(k).Some?
  {
  }

  /** The digit of the leftmost match of the regular expression `EF(\d)`. */
  function FirstRatingDigit(u: string): (d: Option<char>)
    ensures d.Some? ==> IsDigit(d.value) && Contains(u, "EF" + [d.value])
    decreases |u|
  {
    if |u| < 3 then None
    else if u[0] == 'E' && u[1] == 'F' && IsDigit(u[2]) then
      assert OccursAt(u, "EF" + [u[2]], 0) by {
        assert u[..3] == "EF" + [u[2]];
      }
      Some(u[2])
    else
      var d := FirstRatingDigit(u[1..]);
      if d.Some? then
        assert u[1..|u|] == u[1..];
        SliceContains(u, 1, |u|, "EF" + [d.value]);
        d
      else d
  }

  /** `get_ef_category_color`'s rule list, read on the upper-cased rating
      `u`: the category it selects, or `None` when it falls back to the
      default. A selected category is one `u` names. */
  function RuleList(u: string): (r: Option<Category>)
    ensures r.Some? ==> Contains(u, Key(r.value))
  {
    if Contains(u, "EF5") then Some(EF5)
    else if Contains(u, "EF4") then Some(EF4)
    else if Contains(u, "EF3") then Some(EF3)
    else if Contains(u, "EF2") then Some(EF2)
    else if Contains(u, "EF1") && !Contains(u, EF0toEF1) then Some(EF1)
    else if Contains(u, EF0toEF1) then CompoundMentionsEF0(u); Some(EF0)
    else if Contains(u, "EF0") then Some(EF0)
    else if Contains(u, "EFU") then Some(EFU)
    else
      match FirstRatingDigit(u)
      case Some(d) => CategoryOfKey("EF" + [d])
      case None => None
  }

  /** The category of a rating: the rule list on its upper-cased form. */
  function Classify(rating: string): (r: Option<Category>)
    ensures r.Some? ==> Contains(Upper(rating), Key(r.value))
  {
    RuleList(Upper(rating))
  }

  /** `get_ef_category_color`. */
  function GetEfCategoryColor(rating: string): (col: Rgb)
    ensures col in EfColors.Values || col == DefaultFunnelColor
    ensures col == DefaultFunnelColor <==> Classify(rating).None?
    ensures Classify(rating).Some? ==> col == EfColors[Key(Classify(rating).value)]
  {
    var cat := Classify(rating);
    if cat.Some? && Key(cat.value) in EfColors then EfColors[Key(cat.value)] else DefaultFunnelColor
  }

  /** Whether the upper-cased rating `u` names category `c` as the rule
      list reads it: EF1 counts only when `u` contains no "EF0-EF1"
      anywhere, so a standalone EF1 next to the compound is ignored too. */
  predicate Mentions(u: string, c: Category) {
    Contains(u, Key(c)) && !(c == EF1 && Contains(u, EF0toEF1))
  }

  /** The compound rating names EF0. */
  lemma CompoundMentionsEF0(u: string)
    requires Contains(u, EF0toEF1)
    ensures Contains(u, "EF0")
  {
    var i := Find(u, EF0toEF1).value;
    OccursAtChar(u, EF0toEF1, i, 0);
    OccursAtChar(u, EF0toEF1, i, 1);
    OccursAtChar(u, EF0toEF1, i, 2);
    assert u[i..i + 3] == "EF0";
    assert OccursAt(u, "EF0", i);
  }

  /** The regular-expression fallback can only see EF6..EF9, none of which
      is in the table, so it always ends at the default colour. */
  lemma FallbackFindsNoCategory(u: string)
    requires !Contains(u, "EF0") && !Contains(u, "EF1") && !Contains(u, "EF2")
    requires !Contains(u, "EF3") && !Contains(u, "EF4") && !Contains(u, "EF5")
    ensures FirstRatingDigit(u).Some? ==> CategoryOfKey("EF" + [FirstRatingDigit(u).value]).None?
  {
  }

  /** `c` is the highest-ranked category `u` mentions. */
  predicate IsHighestMention(u: string, c: Category) {
    Mentions(u, c) && forall h :: Rank(h) > Rank(c) ==> !Mentions(u, h)
  }

  /** No category ranked above `c` is mentioned, given case by case. */
  lemma NoneAbove(u: string, c: Category)
    requires Rank(c) < Rank(EF5) ==> !Mentions(u, EF5)
    requires Rank(c) < Rank(EF4) ==> !Mentions(u, EF4)
    requires Rank(c) < Rank(EF3) ==> !Mentions(u, EF3)
    requires Rank(c) < Rank(EF2) ==> !Mentions(u, EF2)
    requires Rank(c) < Rank(EF1) ==> !Mentions(u, EF1)
    requires Rank(c) < Rank(EF0) ==> !Mentions(u, EF0)
    ensures forall h :: Rank(h) > Rank(c) ==> !Mentions(u, h)
  {
    forall h | Rank(h) > Rank(c)
      ensures !Mentions(u, h)
    {
      match h
      case EFU =>
      case _ =>
    }
  }

  lemma ClassifySound(rating: string)
    ensures Classify(rating).Some? ==> IsHighestMention(Upper(rating), Classify(rating).value)
    ensures Classify(rating).None? ==> forall h :: !Mentions(Upper(rating), h)
  {
    var u := Upper(rating);
    var r := Classify(rating);
    if Contains(u, EF0toEF1) {
      CompoundMentionsEF0(u);
    }
    if Contains(u, "EF5") {
      assert r == Some(EF5);
      NoneAbove(u, EF5);
    } else if Contains(u, "EF4") {
      assert r == Some(EF4);
      NoneAbove(u, EF4);
    } else if Contains(u, "EF3") {
      assert r == Some(EF3);
      NoneAbove(u, EF3);
    } else if Contains(u, "EF2") {
      assert r == Some(EF2);
      NoneAbove(u, EF2);
    } else if Contains(u, "EF1") && !Contains(u, EF0toEF1) {
      assert r == Some(EF1);
      NoneAbove(u, EF1);
    } else if Contains(u, "EF0") {
      assert r == Some(EF0);
      NoneAbove(u, EF0);
    } else if Contains(u, "EFU") {
      assert !Contains(u, EF0toEF1);
      assert r == Some(EFU);
      NoneAbove(u, EFU);
    } else {
      assert !Contains(u, "EF1");
      FallbackFindsNoCategory(u);
      assert r.None?;
      forall h
        ensures !Mentions(u, h)
      {
      }
    }
  }

  /** The rule list picks the highest-ranked category the rating mentions
      (EF5 > EF4 > EF3 > EF2 > EF1 > EF0 > EFU), and the default exactly
      when it mentions none. */
  lemma ClassifyIsHighestMention(rating: string, c: Category)
    ensures Classify(rating) == Some(c) <==> IsHighestMention(Upper(rating), c)
    ensures Classify(rating).None? <==> forall h :: !Mentions(Upper(rating), h)
  {
    var u := Upper(rating);
    ClassifySound(rating);
    if IsHighestMention(u, c) {
      var c' := Classify(rating).value;
      assert Rank(c') <= Rank(c) && Rank(c) <= Rank(c');
    }
  }

  /** The colour follows the precedence EF5 > EF4 > EF3 > EF2 > EF1 > EF0 >
      EFU: a rating is painted with the table entry of the highest-ranked
      category it mentions. */
  lemma ColorOfHighestMention(rating: string, c: Category)
    requires IsHighestMention(Upper(rating), c)
    ensures GetEfCategoryColor(rating) == EfColors[Key(c)]
  {
    ClassifyIsHighestMention(rating, c);
  }

  /** Classification sees only the upper-cased rating, so it ignores case. */
  lemma ClassifyIgnoresCase(rating: string)
    ensures Classify(Upper(rating)) == Classify(rating)
    ensures GetEfCategoryColor(Upper(rating)) == GetEfCategoryColor(rating)
  {
    UpperIdempotent(rating);
  }

  /** A rating containing "EF0-EF1" and none of EF2..EF5 is EF0, not EF1. */
  lemma CompoundIsEF0(rating: string)
    requires Contains(Upper(rating), EF0toEF1)
    requires forall c :: Rank(c) > Rank(EF1) ==> !Contains(Upper(rating), Key(c))
    ensures Classify(rating) == Some(EF0)
  {
    var u := Upper(rating);
    assert !Contains(u, Key(EF5)) && !Contains(u, Key(EF4)) && !Contains(u, Key(EF3)) && !Contains(u, Key(EF2));
  }

  /** A table key is "EF" and one more character, none of them lower
      case and none a `-`; no other key has that last character anywhere. */
  lemma KeyShape(c: Category)
    ensures |Key(c)| == 3 && Key(c)[0] == 'E' && Key(c)[1] == 'F'
    ensures forall i :: 0 <= i < 3 ==> !IsLower(Key(c)[i]) && Key(c)[i] != '-'
    ensures forall h :: h != c ==> Key(h)[2] !in Key(c)
  {
    match c
    case EFU =>
    case EF0 =>
    case EF1 =>
    case EF2 =>
    case EF3 =>
    case EF4 =>
    case EF5 =>
  }

  /** A bare key mentions its own category and no other. */
  lemma KeyMentionsOnlyItself(c: Category)
    ensures IsHighestMention(Key(c), c)
  {
    var k := Key(c);
    KeyShape(c);
    forall h | h != c
      ensures !Contains(k, Key(h))
    {
      MissingCharNotContained(k, Key(h), 2);
    }
    MissingCharNotContained(k, EF0toEF1, 3);
    assert OccursAt(k, k, 0);
    ContainsIff(k, k);
  }

  /** A bare table key classifies as its own category. */
  lemma ClassifyKey(c: Category)
    ensures Classify(Key(c)) == Some(c)
  {
    KeyShape(c);
    UpperFixed(Key(c));
    KeyMentionsOnlyItself(c);
    ClassifyIsHighestMention(Key(c), c);
  }
}

=== FILE: sheet.dfy ===
/**
 * Grid arithmetic of the contact sheet (sticker_creator.py, lines 238-256):
 * a fixed number of columns, padding between cells, a margin around the
 * sheet, cells placed left to right and top to bottom.
 */
module Sheet {
  import opened Wrappers

  datatype Layout = Layout(columns: nat, padX: nat, padY: nat, marginX: nat, marginY: nat)

  /** `STICKERS_PER_ROW_FOR_SHEET`, `PADDING_BETWEEN_STICKERS_X/Y` and
      `MARGIN_AROUND_SHEET_X/Y`. */
  const StickerSheet: Layout := Layout(13, 15, 15, 30, 30)

  datatype Size = Size(width: int, height: int)

  datatype Point = Point(x: int, y: int)

  /** `(n + cols - 1) // cols`: the rows needed for `n` cells. */
  function RowCount(n: nat, cols: nat): (rows: nat)
    requires cols >= 1
    ensures n >= 1 ==> (rows - 1) * cols < n <= rows * cols
    ensures n == 0 ==> rows == 0
  {
    var q := (n + cols - 1) / cols;
    var r := (n + cols - 1) % cols;
    assert n + cols - 1 == q * cols + r;
    q
  }

  /** The sheet's size for `n` stickers of `w` x `h` pixels; no sheet is
      made when there are no stickers. */
  function SheetSize(n: nat, w: nat, h: nat, layout: Layout): (size: Option<Size>)
    requires layout.columns >= 1
    ensures size.None? <==> n == 0
  {
    if n == 0 then None
    else
      var cols := layout.columns;
      var rows := RowCount(n, cols);
      Some(Size(w * cols + layout.padX * (cols - 1) + 2 * layout.marginX,
                h * rows + layout.padY * (rows - 1) + 2 * layout.marginY))
  }

  /** Where sticker `i` is pasted: column `i % cols`, row `i // cols`. */
  function CellOrigin(i: nat, w: nat, h: nat, layout: Layout): (p: Point)
    requires layout.columns >= 1
    ensures p.x >= layout.marginX && p.y >= layout.marginY
    ensures i % layout.columns == 0 ==> p.x == layout.marginX
    ensures i < layout.columns ==> p == Point(layout.marginX + i * (w + layout.padX), layout.marginY)
  {
    GridIndexFacts(i, layout.columns, w + layout.padX, h + layout.padY);
    Point(layout.marginX + (i % layout.columns) * (w + layout.padX),
          layout.marginY + (i / layout.columns) * (h + layout.padY))
  }

  /** Column and row offsets are never negative, and the first `cols`
      indices sit in row 0 at their own column. */
  lemma GridIndexFacts(i: nat, cols: nat, cw: nat, ch: nat)
    requires cols >= 1
    ensures (i % cols) * cw >= 0 && (i / cols) * ch >= 0
    ensures i < cols ==> i / cols == 0 && i % cols == i
  {
    MulLe(0, i % cols, cw);
    MulLe(0, i / cols, ch);
    if i < cols {
      SmallQuotient(i, cols);
    }
  }

  /** `a * k + k <= b * k` for `a < b` and `k >= 0`. */
  lemma MulStep(a: int, b: int, k: nat)
    requires a < b
    ensures a * k + k <= b * k
  {
    assert b * k - a * k == (b - a) * k;
    assert (b - a) * k >= k by {
      assert (b - a) * k == k + (b - a - 1) * k;
    }
  }

  lemma MulLe(a: int, b: int, k: nat)
    requires a <= b
    ensures a * k <= b * k
  {}

  lemma QuotientBelow(i: nat, cols: nat, rows: nat)
    requires cols >= 1 && i < rows * cols
    ensures i / cols < rows
  {}

  /** Along one axis: the cell at index `k < count` starts after the margin
      and ends a margin before the edge of a sheet sized for `count` cells. */
  lemma AxisInside(k: nat, count: nat, size: nat, pad: nat, margin: nat)
    requires k < count
    ensures margin + k * (size + pad) + size + margin
            <= size * count + pad * (count - 1) + 2 * margin
    ensures margin + (count - 1) * (size + pad) + size + margin
            == size * count + pad * (count - 1) + 2 * margin
  {
    MulLe(k, count - 1, size + pad);
    assert (count - 1) * (size + pad) == size * (count - 1) + pad * (count - 1);
    assert size * count == size * (count - 1) + size;
  }

  lemma MulAtLeast(d: int, k: nat)
    requires d >= 1
    ensures d * k >= k
  {
    assert d * k == k + (d - 1) * k;
  }

  /** Euclidean division has one quotient and remainder. */
  lemma DivUnique(x: nat, cols: nat, q: nat, r: nat)
    requires cols >= 1 && r < cols && x == q * cols + r
    ensures x / cols == q && x % cols == r
  {
    var q' := x / cols;
    var r' := x % cols;
    var d := q - q';
    assert d * cols == r' - r by {
      assert q * cols - q' * cols == d * cols;
    }
    if d >= 1 {
      MulAtLeast(d, cols);
    } else if d <= -1 {
      MulAtLeast(-d, cols);
    }
  }

  lemma MultipleQuotient(q: nat, cols: nat)
    requires cols >= 1
    ensures (q * cols) / cols == q && (q * cols) % cols == 0
  {
    DivUnique(q * cols, cols, q, 0);
  }

  /** Integer division by a positive number is monotone. */
  lemma DivMonotone(i: nat, j: nat, cols: nat)
    requires cols >= 1 && i <= j
    ensures i / cols <= j / cols
  {
    var a := i / cols;
    var b := j / cols;
    if a >= b + 1 {
      MulLe(b + 1, a, cols);
    }
  }

  lemma SmallQuotient(r: nat, cols: nat)
    requires r < cols
    ensures r / cols == 0 && r % cols == r
  {}

  /** Every cell lies inside the margins of the sheet. */
  lemma CellInsideSheet(n: nat, i: nat, w: nat, h: nat, layout: Layout)
    requires layout.columns >= 1
    requires i < n
    ensures var size := SheetSize(n, w, h, layout).value;
      var p := CellOrigin(i, w, h, layout);
      && layout.marginX <= p.x && p.x + w + layout.marginX <= size.width
      && layout.marginY <= p.y && p.y + h + layout.marginY <= size.height
  {
    var cols := layout.columns;
    var rows := RowCount(n, cols);
    QuotientBelow(i, cols, rows);
    AxisInside(i % cols, cols, w, layout.padX, layout.marginX);
    AxisInside(i / cols, rows, h, layout.padY, layout.marginY);
  }

  /** The sheet is exactly as large as the grid plus the margins: the last
      column and the last row end one margin before the edge. */
  lemma SheetIsTight(n: nat, w: nat, h: nat, layout: Layout)
    requires layout.columns >= 1
    requires n >= 1
    ensures var size := SheetSize(n, w, h, layout).value;
      var rows := RowCount(n, layout.columns);
      && CellOrigin(layout.columns - 1, w, h, layout).x + w + layout.marginX == size.width
      && CellOrigin((rows - 1) * layout.columns, w, h, layout).y + h + layout.marginY == size.height
  {
    var cols := layout.columns;
    var rows := RowCount(n, cols);
    AxisInside(cols - 1, cols, w, layout.padX, layout.marginX);
    AxisInside(rows - 1, rows, h, layout.padY, layout.marginY);
    SmallQuotient(cols - 1, cols);
    MultipleQuotient(rows - 1, cols);
  }

  /** The pixel rectangles of two cells share an interior point. */
  predicate Overlap(p: Point, q: Point, w: nat, h: nat) {
    p.x < q.x + w && q.x < p.x + w && p.y < q.y + h && q.y < p.y + h
  }

  /** Distinct stickers are pasted onto disjoint rectangles. */
  lemma CellsDisjoint(i: nat, j: nat, w: nat, h: nat, layout: Layout)
    requires layout.columns >= 1
    requires i != j
    ensures !Overlap(CellOrigin(i, w, h, layout), CellOrigin(j, w, h, layout), w, h)
  {
    var cols := layout.columns;
    assert i == (i / cols) * cols + i % cols;
    assert j == (j / cols) * cols + j % cols;
    if i % cols < j % cols {
      MulStep(i % cols, j % cols, w + layout.padX);
    } else if j % cols < i % cols {
      MulStep(j % cols, i % cols, w + layout.padX);
    } else if i / cols < j / cols {
      MulStep(i / cols, j / cols, h + layout.padY);
    } else {
      assert j / cols < i / cols;
      MulStep(j / cols, i / cols, h + layout.padY);
    }
  }

  /** Stickers are placed in row-major order: a later sticker is on a lower
      row, or on the same row further right. */
  lemma RowMajorOrder(i: nat, j: nat, w: nat, h: nat, layout: Layout)
    requires layout.columns >= 1
    requires w + layout.padX >= 1 && h + layout.padY >= 1
    requires i < j
    ensures var p := CellOrigin(i, w, h, layout);
      var q := CellOrigin(j, w, h, layout);
      p.y < q.y || (p.y == q.y && p.x < q.x)
  {
    var cols := layout.columns;
    DivMonotone(i, j, cols);
    if i / cols < j / cols {
      MulStep(i / cols, j / cols, h + layout.padY);
    } else {
      assert i == (i / cols) * cols + i % cols;
      assert j == (j / cols) * cols + j % cols;
      MulStep(i % cols, j % cols, w + layout.padX);
    }
  }
}

=== FILE: substrings.dfy ===
/**
 * Substring search, `in`, `str.split(sep)` and `sep.join(parts)` on strings,
 * as the sticker generator uses them.
 */
module Substrings {
  import opened Wrappers

  /** `t` occurs in `s` starting at index `i`. */
  predicate OccursAt(s: string, t: string, i: int) {
    0 <= i && i + |t| <= |s| && s[i..i + |t|] == t
  }

  lemma OccursShift(s: string, t: string)
    requires |s| > 0
    ensures forall j {:trigger OccursAt(s, t, j)} :: 1 <= j ==> (OccursAt(s, t, j) <==> OccursAt(s[1..], t, j - 1))
  {
    forall j | 1 <= j
      ensures OccursAt(s, t, j) <==> OccursAt(s[1..], t, j - 1)
    {
      if j + |t| <= |s| {
        assert s[1..][j - 1..j - 1 + |t|] == s[j..j + |t|];
      }
    }
  }

  /** The leftmost occurrence of `t` in `s` (Python's `str.find`), if any. */
  function Find(s: string, t: string): (r: Option<nat>)
    ensures r.Some? ==> OccursAt(s, t, r.value)
    ensures r.Some? ==> forall j :: 0 <= j < r.value ==> !OccursAt(s, t, j)
    ensures r.None? ==> forall j :: !OccursAt(s, t, j)
    decreases |s|
  {
    if |s| < |t| then None
    else if s[..|t|] == t then Some(0)
    else
      OccursShift(s, t);
      match Find(s[1..], t)
      case None => None
      case Some(k) => Some(k + 1)
  }

  /** Python's `t in s`. */
  predicate Contains(s: string, t: string) {
    Find(s, t).Some?
  }

  lemma ContainsIff(s: string, t: string)
    ensures Contains(s, t) <==> exists i :: OccursAt(s, t, i)
  {
  }

  /** An occurrence inside a slice is an occurrence in the whole string. */
  lemma SliceContains(s: string, lo: int, hi: int, t: string)
    requires 0 <= lo <= hi <= |s|
    requires Contains(s[lo..hi], t)
    ensures Contains(s, t)
  {
    var u := s[lo..hi];
    var j := Find(u, t).value;
    assert OccursAt(u, t, j);
    assert j + |t| <= |u|;
    var a := u[j..j + |t|];
    var b := s[lo + j..lo + j + |t|];
    assert a == b by {
      forall k | 0 <= k < |t|
        ensures a[k] == b[k]
      {
        assert a[k] == u[j + k] == s[lo + j + k];
      }
    }
    assert OccursAt(s, t, lo + j);
  }

  /** Each character of an occurrence matches the searched string. */
  lemma OccursAtChar(s: string, t: string, j: int, k: int)
    requires OccursAt(s, t, j)
    requires 0 <= k < |t|
    ensures s[j + k] == t[k]
  {
    assert s[j..j + |t|][k] == s[j + k];
  }

  /** Appending text does not change occurrences that end before it. */
  lemma OccursBeforeAppend(s: string, u: string, t: string, j: int)
    requires 0 <= j && j + |t| <= |s|
    ensures OccursAt(s + u, t, j) <==> OccursAt(s, t, j)
  {
    assert (s + u)[j..j + |t|] == s[j..j + |t|];
  }

  /** The characters of a contained string occur in the container. */
  lemma ContainedChars(s: string, t: string)
    requires Contains(s, t)
    ensures forall i :: 0 <= i < |t| ==> t[i] in s
  {
    var j := Find(s, t).value;
    forall i | 0 <= i < |t|
      ensures t[i] in s
    {
      OccursAtChar(s, t, j, i);
    }
  }

  /** A character of `s` is a one-character substring of it. */
  lemma CharContained(s: string, c: char)
    requires c in s
    ensures Contains(s, [c])
  {
    var j :| 0 <= j < |s| && s[j] == c;
    assert s[j..j + 1] == [c];
    assert OccursAt(s, [c], j);
  }

  /** The first piece of a split is a prefix of the string. */
  lemma {:induction false} JoinHead(parts: seq<string>, sep: string)
    requires |parts| >= 1
    ensures |parts[0]| <= |Join(parts, sep)|
    ensures Join(parts, sep)[..|parts[0]|] == parts[0]
  {
  }

  /** Containment is transitive. */
  lemma ContainsTransitive(s: string, u: string, t: string)
    requires Contains(s, u) && Contains(u, t)
    ensures Contains(s, t)
  {
    var i := Find(s, u).value;
    assert s[i..i + |u|] == u;
    SliceContains(s, i, i + |u|, t);
  }

  /** What a string does not contain, no piece of it contains. */
  lemma NotContainedInPiece(s: string, u: string, t: string)
    requires Contains(s, u) && !Contains(s, t)
    ensures !Contains(u, t)
  {
    if Contains(u, t) {
      ContainsTransitive(s, u, t);
    }
  }

  /** A string that lacks one of the characters of `t` cannot contain `t`. */
  lemma MissingCharNotContained(s: string, t: string, k: nat)
    requires k < |t|
    requires t[k] !in s
    ensures !Contains(s, t)
  {
    forall j | 0 <= j && j + |t| <= |s|
      ensures !OccursAt(s, t, j)
    {
      assert s[j..j + |t|][k] == s[j + k];
      assert s[j + k] in s;
    }
  }

  /** `sep.join(parts)`. */
  function Join(parts: seq<string>, sep: string): string {
    if |parts| == 0 then ""
    else if |parts| == 1 then parts[0]
    else parts[0] + sep + Join(parts[1..], sep)
  }

  /** A character property shared by every part and the separator holds of
      every character of the join. */
  lemma {:induction false} JoinKeeps(parts: seq<string>, sep: string, P: char -> bool)
    requires forall k, i :: 0 <= k < |parts| && 0 <= i < |parts[k]| ==> P(parts[k][i])
    requires forall i :: 0 <= i < |sep| ==> P(sep[i])
    ensures forall i :: 0 <= i < |Join(parts, sep)| ==> P(Join(parts, sep)[i])
    decreases |parts|
  {
    if |parts| > 1 {
      JoinKeeps(parts[1..], sep, P);
      var rest := Join(parts[1..], sep);
      var j := parts[0] + sep + rest;
      forall i | 0 <= i < |j|
        ensures P(j[i])
      {
        if i < |parts[0]| {
          assert j[i] == parts[0][i];
        } else if i < |parts[0]| + |sep| {
          assert j[i] == sep[i - |parts[0]|];
        } else {
          assert j[i] == rest[i - |parts[0]| - |sep|];
        }
      }
    } else if |parts| == 1 {
      assert Join(parts, sep) == parts[0];
    }
  }

  /** The join ends with the last part. */
  lemma {:induction false} JoinLast(parts: seq<string>, sep: string)
    requires |parts| >= 1
    ensures |parts[|parts| - 1]| <= |Join(parts, sep)|
    ensures Join(parts, sep)[|Join(parts, sep)| - |parts[|parts| - 1]|..] == parts[|parts| - 1]
    decreases |parts|
  {
    if |parts| > 1 {
      JoinLast(parts[1..], sep);
      assert parts[1..][|parts[1..]| - 1] == parts[|parts| - 1];
    }
  }

  /** Appending a part adds one separator and the part (the source's
      `line += " " + word`). */
  lemma {:induction false} JoinSnoc(parts: seq<string>, p: string, sep: string)
    requires |parts| > 0
    ensures Join(parts + [p], sep) == Join(parts, sep) + sep + p
    decreases |parts|
  {
    if |parts| == 1 {
      assert parts + [p] == [parts[0], p];
      assert [parts[0], p][1..] == [p];
    } else {
      assert (parts + [p])[1..] == parts[1..] + [p];
      JoinSnoc(parts[1..], p, sep);
    }
  }

  /** Python's `s.split(sep)` for a non-empty separator: the pieces between
      the leftmost non-overlapping occurrences of `sep`. */
  function Split(s: string, sep: string): (parts: seq<string>)
    requires |sep| > 0
    ensures |parts| >= 1
    ensures Join(parts, sep) == s
    ensures forall k :: 0 <= k < |parts| ==> !Contains(parts[k], sep)
    decreases |s|
  {
    match Find(s, sep)
    case None => [s]
    case Some(i) =>
      var rest := Split(s[i + |sep|..], sep);
      PrefixBeforeFirstOccurrence(s, sep, i);
      assert s == s[..i] + sep + s[i + |sep|..] by {
        assert s[i..i + |sep|] == sep;
      }
      [s[..i]] + rest
  }

  lemma PrefixBeforeFirstOccurrence(s: string, sep: string, i: nat)
    requires |sep| > 0
    requires Find(s, sep) == Some(i)
    ensures !Contains(s[..i], sep)
  {
    forall j | 0 <= j && j + |sep| <= i
      ensures !OccursAt(s[..i], sep, j)
    {
      assert s[..i][j..j + |sep|] == s[j..j + |sep|];
      assert !OccursAt(s, sep, j);
    }
  }

  /** `p + sep` has no occurrence of `sep` before the appended one, so a
      following split cuts exactly after `p`. */
  predicate Separable(p: string, sep: string) {
    forall j :: 0 <= j < |p| ==> !OccursAt(p + sep, sep, j)
  }

  lemma FindAfterSeparable(p: string, sep: string, rest: string)
    requires |sep| > 0
    requires Separable(p, sep)
    ensures Find(p + sep + rest, sep) == Some(|p|)
  {
    var s := p + sep + rest;
    assert s[|p|..|p| + |sep|] == sep;
    assert OccursAt(s, sep, |p|);
    forall j | 0 <= j < |p|
      ensures !OccursAt(s, sep, j)
    {
      if OccursAt(s, sep, j) {
        assert s[j..j + |sep|] == (p + sep)[j..j + |sep|];
        assert OccursAt(p + sep, sep, j);
      }
    }
  }

  /** Splitting `p + sep + rest` yields `p` followed by the split of `rest`. */
  lemma SplitCons(p: string, sep: string, rest: string)
    requires |sep| > 0
    requires Separable(p, sep)
    ensures Split(p + sep + rest, sep) == [p] + Split(rest, sep)
  {
    var s := p + sep + rest;
    FindAfterSeparable(p, sep, rest);
    assert s[..|p|] == p;
    assert s[|p| + |sep|..] == rest;
  }

  /** A string without the separator splits into itself. */
  lemma SplitWhole(s: string, sep: string)
    requires |sep| > 0
    requires !Contains(s, sep)
    ensures Split(s, sep) == [s]
  {
  }

  /** A separable piece and a separator-free piece, joined by the
      separator, split back into the two pieces. */
  lemma SplitTwo(b: string, c: string, sep: string)
    requires |sep| > 0
    requires Separable(b, sep) && !Contains(c, sep)
    ensures Split(b + sep + c, sep) == [b, c]
  {
    SplitCons(b, sep, c);
    SplitWhole(c, sep);
  }

  /** Two separable pieces and a separator-free last piece, joined by the
      separator, split back into the three pieces. */
  lemma SplitThree(a: string, b: string, c: string, sep: string)
    requires |sep| > 0
    requires Separable(a, sep) && Separable(b, sep) && !Contains(c, sep)
    ensures Split(a + sep + b + sep + c, sep) == [a, b, c]
  {
    var tail := b + sep + c;
    SplitTwo(b, c, sep);
    SplitCons(a, sep, tail);
    Regroup(a, sep, tail, b, c);
  }

  lemma Regroup(a: string, sep: string, tail: string, b: string, c: string)
    requires tail == b + sep + c
    ensures a + sep + b + sep + c == a + sep + tail
  {
  }

}

=== FILE: whitespace.dfy ===
/**
 * Python's `str.strip()` and argument-less `str.split()`, over the ASCII
 * whitespace class of `Chars.IsSpace`.
 */
module Whitespace {
  import opened Chars
  import opened Substrings

  /** No leading or trailing whitespace. */
  predicate IsStripped(s: string) {
    s == [] || (!IsSpace(s[0]) && !IsSpace(s[|s| - 1]))
  }

  function TrimLeft(s: string): (r: string)
    ensures |r| <= |s| && r == s[|s| - |r|..]
    ensures AllSpace(s[..|s| - |r|])
    ensures r == [] || !IsSpace(r[0])
    decreases |s|
  {
    if |s| > 0 && IsSpace(s[0]) then TrimLeft(s[1..]) else s
  }

  function TrimRight(s: string): (r: string)
    ensures |r| <= |s| && r == s[..|r|]
    ensures AllSpace(s[|r|..])
    ensures r == [] || !IsSpace(r[|r| - 1])
    decreases |s|
  {
    if |s| > 0 && IsSpace(s[|s| - 1]) then TrimRight(s[..|s| - 1]) else s
  }

  /** Python's `s.strip()`: the slice of `s` left once the whitespace at
      both ends is removed. */
  function Strip(s: string): (r: string)
    ensures IsStripped(r)
    ensures Contains(s, r)
  {
    var l := TrimLeft(s);
    var r := TrimRight(l);
    SuffixPrefixContained(s, l, r);
    r
  }

  /** A prefix of a suffix of `s` occurs in `s`. */
  lemma SuffixPrefixContained(s: string, l: string, r: string)
    requires |l| <= |s| && l == s[|s| - |l|..]
    requires |r| <= |l| && r == l[..|r|]
    ensures Contains(s, r)
  {
    var i := |s| - |l|;
    assert s[i..i + |r|] == r by {
      forall k | 0 <= k < |r|
        ensures s[i..i + |r|][k] == r[k]
      {
        assert r[k] == l[k] == s[i + k];
      }
    }
    assert OccursAt(s, r, i);
    ContainsIff(s, r);
  }

  lemma {:induction false} TrimLeftFrame(a: string, x: string)
    requires AllSpace(a)
    requires x == [] || !IsSpace(x[0])
    ensures TrimLeft(a + x) == x
    decreases |a|
  {
    if |a| > 0 {
      assert (a + x)[1..] == a[1..] + x;
      TrimLeftFrame(a[1..], x);
    } else {
      assert a + x == x;
    }
  }

  lemma {:induction false} TrimRightFrame(x: string, b: string)
    requires AllSpace(b)
    requires x == [] || !IsSpace(x[|x| - 1])
    ensures TrimRight(x + b) == x
    decreases |b|
  {
    if |b| > 0 {
      assert (x + b)[..|x + b| - 1] == x + b[..|b| - 1];
      TrimRightFrame(x, b[..|b| - 1]);
    } else {
      assert x + b == x;
    }
  }

  /** Stripping removes exactly the surrounding whitespace: a stripped
      string padded with whitespace strips back to itself. */
  lemma StripFrame(a: string, x: string, b: string)
    requires AllSpace(a) && AllSpace(b)
    requires IsStripped(x)
    ensures Strip(a + x + b) == x
  {
    if x == [] {
      assert a + x + b == a + b;
      TrimLeftFrame(a + b, "");
      assert a + b + "" == a + b;
    } else {
      assert a + x + b == a + (x + b);
      TrimLeftFrame(a, x + b);
      TrimRightFrame(x, b);
    }
  }

  /** A stripped string strips to itself. */
  lemma StripStripped(x: string)
    requires IsStripped(x)
    ensures Strip(x) == x
  {
    StripFrame("", x, "");
    assert "" + x + "" == x;
  }

  lemma StripIdempotent(s: string)
    ensures Strip(Strip(s)) == Strip(s)
  {
    var x := Strip(s);
    StripFrame("", x, "");
    assert "" + x + "" == x;
  }

  /** Length of the leading run of non-whitespace characters. */
  function WordEnd(s: string): (k: nat)
    ensures k <= |s|
    ensures NoSpace(s[..k])
    ensures k == |s| || IsSpace(s[k])
    decreases |s|
  {
    if |s| == 0 || IsSpace(s[0]) then 0
    else
      var k := 1 + WordEnd(s[1..]);
      assert s[..k] == [s[0]] + s[1..][..k - 1];
      k
  }

  /** A word of `str.split()`: non-empty, without whitespace. */
  predicate IsWord(w: string) {
    |w| > 0 && NoSpace(w)
  }

  /** Python's `text.split()`: the maximal whitespace-free runs of `s`. */
  function SplitWords(s: string): (ws: seq<string>)
    ensures forall k :: 0 <= k < |ws| ==> IsWord(ws[k])
    ensures ws == [] <==> AllSpace(s)
    decreases |s|
  {
    if |s| == 0 then []
    else if IsSpace(s[0]) then
      var ws := SplitWords(s[1..]);
      assert AllSpace(s) <==> AllSpace(s[1..]);
      ws
    else
      var k := WordEnd(s);
      [s[..k]] + SplitWords(s[k..])
  }

  lemma {:induction false} WordEndFrame(w: string, rest: string)
    requires NoSpace(w)
    requires rest == [] || IsSpace(rest[0])
    ensures WordEnd(w + rest) == |w|
    decreases |w|
  {
    if |w| > 0 {
      assert (w + rest)[1..] == w[1..] + rest;
      WordEndFrame(w[1..], rest);
    } else {
      assert w + rest == rest;
    }
  }

  /** Leading whitespace contributes no word. */
  lemma {:induction false} SplitSkipsSpace(a: string, x: string)
    requires AllSpace(a)
    ensures SplitWords(a + x) == SplitWords(x)
    decreases |a|
  {
    if |a| > 0 {
      assert (a + x)[0] == a[0];
      assert (a + x)[1..] == a[1..] + x;
      SplitSkipsSpace(a[1..], x);
    } else {
      assert a + x == x;
    }
  }

  /** `str.split()` reads one word at a time: whitespace, then a word
      ending at whitespace or at the end, yields that word followed by the
      words of the rest. */
  lemma SplitWordsFrame(a: string, w: string, b: string)
    requires AllSpace(a) && IsWord(w)
    requires b == [] || IsSpace(b[0])
    ensures SplitWords(a + w + b) == [w] + SplitWords(b)
  {
    assert a + w + b == a + (w + b);
    SplitSkipsSpace(a, w + b);
    WordEndFrame(w, b);
    assert (w + b)[0] == w[0];
    assert (w + b)[..|w|] == w;
    assert (w + b)[|w|..] == b;
  }

  /** Joining words with single spaces and splitting again returns the
      words: `str.split()` inverts `" ".join`. */
  lemma {:induction false} SplitJoinWords(ws: seq<string>)
    requires forall k :: 0 <= k < |ws| ==> IsWord(ws[k])
    ensures SplitWords(Join(ws, " ")) == ws
    decreases |ws|
  {
    if |ws| == 1 {
      WordEndFrame(ws[0], "");
      assert ws[0] + "" == ws[0];
      assert ws[0][|ws[0]|..] == "";
    } else if |ws| > 1 {
      var rest := Join(ws[1..], " ");
      var s := ws[0] + " " + rest;
      assert s == ws[0] + (" " + rest);
      WordEndFrame(ws[0], " " + rest);
      assert s[..|ws[0]|] == ws[0];
      assert s[|ws[0]|..] == " " + rest;
      assert (" " + rest)[1..] == rest;
      SplitJoinWords(ws[1..]);
      assert ws == [ws[0]] + ws[1..];
    }
  }
}

=== FILE: wrap.dfy ===
/**
 * Greedy word wrapping (sticker_creator.py, `draw_text_with_wrapping`,
 * lines 84-89 and 96-100). Rendered width is a parameter: the glyph
 * metrics of the font are not modelled.
 */
module Wrap {
  import opened Chars
  import opened Substrings
  import opened Whitespace

  /** `draw.textlength(text, font)` for the font of the given size. */
  type Measure = (string, int) -> real

  /** The text of a line holding the words `g`, joined by single spaces. */
  function LineText(g: seq<string>): string {
    Join(g, " ")
  }

  /** The source extends a line with `line + " " + word`. */
  lemma LineTextSnoc(g: seq<string>, w: string)
    requires |g| > 0
    ensures LineText(g + [w]) == LineText(g) + " " + w
  {
    JoinSnoc(g, w, " ");
  }

  function Flatten(groups: seq<seq<string>>): seq<string> {
    if |groups| == 0 then [] else groups[0] + Flatten(groups[1..])
  }

  /** Each non-empty line contributes at least one word. */
  lemma {:induction false} FlattenLength(groups: seq<seq<string>>)
    requires AllNonEmpty(groups)
    ensures |Flatten(groups)| >= |groups|
    decreases |groups|
  {
    if |groups| > 0 {
      FlattenLength(groups[1..]);
    }
  }

  /** The packing loop: `done` holds the closed lines, `cur` the words of the
      open line, `rest` the words still to place. What it computes is
      stated by `GreedyAccumulates`, `GreedyIsGreedy` and `GreedyUnique`. */
  function Greedy(width: Measure, size: int, maxWidth: real,
                  done: seq<seq<string>>, cur: seq<string>, rest: seq<string>): seq<seq<string>>
    requires |cur| > 0
    decreases |rest|
  {
    if |rest| == 0 then done + [cur]
    else if width(LineText(cur) + " " + rest[0], size) <= maxWidth then
      Greedy(width, size, maxWidth, done, cur + [rest[0]], rest[1..])
    else
      Greedy(width, size, maxWidth, done + [cur], [rest[0]], rest[1..])
  }

  /** The words of each line packed at font size `size`: a greedy packing
      of the words, so the lines cover the words in order, every line only
      grew while it fitted, and every break was forced. */
  function Pack(words: seq<string>, width: Measure, size: int, maxWidth: real): (groups: seq<seq<string>>)
    requires |words| > 0
    ensures IsGreedyPacking(words, groups, width, size, maxWidth)
  {
    GreedyIsGreedy(width, size, maxWidth, [words[0]], words[1..]);
    assert [words[0]] + words[1..] == words;
    Greedy(width, size, maxWidth, [], [words[0]], words[1..])
  }

  function Lines(groups: seq<seq<string>>): (lines: seq<string>)
    ensures |lines| == |groups|
  {
    seq(|groups|, k requires 0 <= k < |groups| => LineText(groups[k]))
  }

  predicate AllNonEmpty(groups: seq<seq<string>>) {
    forall k :: 0 <= k < |groups| ==> |groups[k]| > 0
  }

  /** Every prefix of two or more words of the line fits. */
  predicate PrefixesFit(g: seq<string>, width: Measure, size: int, maxWidth: real) {
    forall n :: 2 <= n <= |g| ==> width(LineText(g[..n]), size) <= maxWidth
  }

  /** Each closed line, extended by the first word of the next line,
      would not fit. */
  predicate BreaksForced(groups: seq<seq<string>>, width: Measure, size: int, maxWidth: real)
    requires AllNonEmpty(groups)
  {
    forall k :: 0 <= k < |groups| - 1 ==>
      width(LineText(groups[k]) + " " + groups[k + 1][0], size) > maxWidth
  }

  /** What greedy packing means, independently of the loop: the lines
      partition the words in order, every line grows only while it fits,
      and every break was forced. */
  predicate IsGreedyPacking(words: seq<string>, groups: seq<seq<string>>,
                            width: Measure, size: int, maxWidth: real) {
    && |groups| >= 1
    && AllNonEmpty(groups)
    && Flatten(groups) == words
    && (forall k :: 0 <= k < |groups| ==> PrefixesFit(groups[k], width, size, maxWidth))
    && BreaksForced(groups, width, size, maxWidth)
  }

  /** The packing so far with `cur` open: as `IsGreedyPacking` of
      `cur + rest`, with the first line starting with `cur`. */
  predicate GreedyFrom(cur: seq<string>, rest: seq<string>, groups: seq<seq<string>>,
                       width: Measure, size: int, maxWidth: real) {
    && |groups| >= 1
    && AllNonEmpty(groups)
    && Flatten(groups) == cur + rest
    && |cur| <= |groups[0]| && groups[0][..|cur|] == cur
    && (forall k :: 0 <= k < |groups| ==> PrefixesFit(groups[k], width, size, maxWidth))
    && BreaksForced(groups, width, size, maxWidth)
  }

  lemma {:induction false} GreedyAccumulates(width: Measure, size: int, maxWidth: real,
                                             done: seq<seq<string>>, cur: seq<string>, rest: seq<string>)
    requires |cur| > 0
    ensures Greedy(width, size, maxWidth, done, cur, rest) == done + Greedy(width, size, maxWidth, [], cur, rest)
    decreases |rest|
  {
    if |rest| > 0 {
      var w, rs := rest[0], rest[1..];
      if width(LineText(cur) + " " + w, size) <= maxWidth {
        GreedyAccumulates(width, size, maxWidth, done, cur + [w], rs);
        GreedyAccumulates(width, size, maxWidth, [], cur + [w], rs);
      } else {
        var t := Greedy(width, size, maxWidth, [], [w], rs);
        GreedyAccumulates(width, size, maxWidth, done + [cur], [w], rs);
        GreedyAccumulates(width, size, maxWidth, [cur], [w], rs);
        assert [] + [cur] == [cur];
        assert Greedy(width, size, maxWidth, [], cur, rest) == [cur] + t;
        assert done + [cur] + t == done + ([cur] + t);
      }
    }
  }

  lemma PrefixesFitSnoc(g: seq<string>, w: string, width: Measure, size: int, maxWidth: real)
    requires |g| > 0
    requires PrefixesFit(g, width, size, maxWidth)
    requires width(LineText(g) + " " + w, size) <= maxWidth
    ensures PrefixesFit(g + [w], width, size, maxWidth)
  {
    LineTextSnoc(g, w);
    forall n | 2 <= n <= |g + [w]|
      ensures width(LineText((g + [w])[..n]), size) <= maxWidth
    {
      if n <= |g| {
        assert (g + [w])[..n] == g[..n];
      } else {
        assert (g + [w])[..n] == g + [w];
      }
    }
  }

  /** The loop, run from an open line whose prefixes fit, produces a
      greedy packing of the remaining words. */
  lemma {:induction false} GreedyIsGreedy(width: Measure, size: int, maxWidth: real,
                                          cur: seq<string>, rest: seq<string>)
    requires |cur| > 0
    requires PrefixesFit(cur, width, size, maxWidth)
    ensures GreedyFrom(cur, rest, Greedy(width, size, maxWidth, [], cur, rest), width, size, maxWidth)
    decreases |rest|
  {
    var out := Greedy(width, size, maxWidth, [], cur, rest);
    if |rest| == 0 {
      assert out == [cur];
      assert Flatten(out) == cur + Flatten([]);
      assert cur + rest == cur;
      assert cur[..|cur|] == cur;
    } else if width(LineText(cur) + " " + rest[0], size) <= maxWidth {
      var cur' := cur + [rest[0]];
      PrefixesFitSnoc(cur, rest[0], width, size, maxWidth);
      GreedyIsGreedy(width, size, maxWidth, cur', rest[1..]);
      assert cur' + rest[1..] == cur + rest;
      assert out[0][..|cur'|][..|cur|] == cur;
    } else {
      var tail := Greedy(width, size, maxWidth, [], [rest[0]], rest[1..]);
      assert [] + [cur] == [cur];
      GreedyAccumulates(width, size, maxWidth, [cur], [rest[0]], rest[1..]);
      assert out == [cur] + tail;
      GreedyIsGreedy(width, size, maxWidth, [rest[0]], rest[1..]);
      assert out[1..] == tail;
      assert Flatten(out) == cur + Flatten(tail);
      assert [rest[0]] + rest[1..] == rest;
      assert tail[0][..1] == [rest[0]];
      assert cur[..|cur|] == cur;
    }
  }

  /** Any greedy packing continuing from `cur` is the one the loop builds. */
  lemma {:induction false} GreedyUnique(width: Measure, size: int, maxWidth: real,
                                        cur: seq<string>, rest: seq<string>, groups: seq<seq<string>>)
    requires |cur| > 0
    requires GreedyFrom(cur, rest, groups, width, size, maxWidth)
    ensures groups == Greedy(width, size, maxWidth, [], cur, rest)
    decreases |rest|
  {
    assert Flatten(groups) == groups[0] + Flatten(groups[1..]);
    if |rest| == 0 {
      assert |groups[0]| == |cur|;
      assert groups[0] == cur;
      FlattenLength(groups[1..]);
      assert groups == [cur];
    } else if |groups[0]| > |cur| {
      var cur' := cur + [rest[0]];
      assert groups[0][|cur|] == (cur + rest)[|cur|] == rest[0];
      assert groups[0][..|cur'|] == cur';
      assert groups[0][..|cur'|][..2] == groups[0][..2];
      LineTextSnoc(cur, rest[0]);
      assert width(LineText(groups[0][..|cur'|]), size) <= maxWidth;
      assert cur' + rest[1..] == cur + rest;
      GreedyUnique(width, size, maxWidth, cur', rest[1..], groups);
    } else {
      assert groups[0] == cur;
      assert |groups| > 1 by {
        assert |Flatten(groups[1..])| == |rest| > 0;
      }
      var tail := groups[1..];
      assert Flatten(groups) == cur + Flatten(tail);
      assert Flatten(tail) == (cur + Flatten(tail))[|cur|..] == (cur + rest)[|cur|..] == rest;
      assert Flatten(tail) == tail[0] + Flatten(tail[1..]);
      assert tail[0][0] == rest[0];
      assert width(LineText(cur) + " " + rest[0], size) > maxWidth;
      assert [rest[0]] + rest[1..] == rest;
      assert tail[0][..1] == [rest[0]];
      assert forall k :: 0 <= k < |tail| ==> tail[k] == groups[k + 1];
      GreedyUnique(width, size, maxWidth, [rest[0]], rest[1..], tail);
      assert [] + [cur] == [cur];
      GreedyAccumulates(width, size, maxWidth, [cur], [rest[0]], rest[1..]);
      assert groups == [cur] + tail;
    }
  }

  /** Greedy packing is determined by the words and the measure: the loop's
      packing is the only greedy packing. */
  lemma PackIsOnlyGreedy(words: seq<string>, groups: seq<seq<string>>,
                         width: Measure, size: int, maxWidth: real)
    requires |words| > 0
    requires IsGreedyPacking(words, groups, width, size, maxWidth)
    ensures groups == Pack(words, width, size, maxWidth)
  {
    assert [words[0]] + words[1..] == words;
    assert Flatten(groups) == groups[0] + Flatten(groups[1..]);
    assert groups[0][..1] == [words[0]];
    GreedyUnique(width, size, maxWidth, [words[0]], words[1..], groups);
  }

  lemma {:induction false} FlattenMember(groups: seq<seq<string>>, k: int, i: int)
    requires 0 <= k < |groups| && 0 <= i < |groups[k]|
    ensures groups[k][i] in Flatten(groups)
    decreases |groups|
  {
    if k > 0 {
      FlattenMember(groups[1..], k - 1, i);
    }
  }

  /** Each packed line, split on whitespace, gives back its words. */
  lemma LinesSplitBack(words: seq<string>, groups: seq<seq<string>>)
    requires forall i :: 0 <= i < |words| ==> IsWord(words[i])
    requires Flatten(groups) == words
    ensures forall k :: 0 <= k < |groups| ==> SplitWords(Lines(groups)[k]) == groups[k]
  {
    forall k | 0 <= k < |groups|
      ensures SplitWords(Lines(groups)[k]) == groups[k]
    {
      forall i | 0 <= i < |groups[k]|
        ensures IsWord(groups[k][i])
      {
        FlattenMember(groups, k, i);
      }
      SplitJoinWords(groups[k]);
    }
  }

  /** The lines drawn for `words` at font size `size`. */
  function WrapLines(words: seq<string>, width: Measure, size: int, maxWidth: real): (lines: seq<string>)
    requires |words| > 0
    requires forall i :: 0 <= i < |words| ==> IsWord(words[i])
    ensures |lines| >= 1
    ensures forall k :: 0 <= k < |lines| ==> |SplitWords(lines[k])| >= 1
    ensures Flatten(seq(|lines|, k requires 0 <= k < |lines| => SplitWords(lines[k]))) == words
    ensures forall k :: 0 <= k < |lines| && |SplitWords(lines[k])| >= 2 ==> width(lines[k], size) <= maxWidth
    ensures forall k :: 0 <= k < |lines| - 1 ==> width(lines[k] + " " + SplitWords(lines[k + 1])[0], size) > maxWidth
  {
    var groups := Pack(words, width, size, maxWidth);
    LinesSplitBack(words, groups);
    var lines := Lines(groups);
    assert seq(|lines|, k requires 0 <= k < |lines| => SplitWords(lines[k])) == groups;
    forall k | 0 <= k < |lines| && |groups[k]| >= 2
      ensures width(lines[k], size) <= maxWidth
    {
      assert groups[k][..|groups[k]|] == groups[k];
    }
    lines
  }
}

=== FILE: wrappers.dfy ===
/** The optional-value datatype used for the source's `None` returns. */
module Wrappers {

  datatype Option<+T> = None | Some(value: T)
}
